=== FILE: README.md ===
# pofile-cli populate command: a Dafny model

This project models `pofile populate`, the command-line client that sends
gettext `.po` files to the pofile.io translation service and writes the
translated files back. It covers five parts.

- **The depth-bounded search for `.po` files.** This is `find_po_files`.
  The walk of a directory tree is modelled as the standard library's
  top-down walk. Depth is measured, as the code does, by counting separators
  in the walk's path strings. `Orchestrator.Run` uses this search as
  written; a corrected search that counts components is modelled beside it
  (see Findings).
- **The content sniff.** This is `is_valid_po_content`. A file passes when
  its text contains `"Language: `, `msgid "` and `msgstr "`.
- **The endpoint URLs.** The upload and download endpoints are built by
  `urljoin` of the configured domain and an absolute path. The model covers
  the part of `urljoin` that these calls reach (section 5.2.2 of RFC 3986,
  as CPython 3.12.3's `urllib.parse` implements it):
  - the base's scheme is lower-cased;
  - the base's location is kept and its path, query and fragment are
    dropped;
  - dot segments in the reference are resolved;
  - an unmatched `[` or `]` in the location raises `Invalid IPv6 URL`;
  - a base with no scheme keeps its `//` location, if it has one, and the
    reference's dot segments are still resolved;
  - an empty base returns the reference as it is.
- **The API token.** The `--api-key` value wins when it is non-empty;
  otherwise `POFILE_API_KEY` is used. The upload request carries
  `Authorization: Bearer <token>` exactly when the chosen token is
  non-empty.
- **The populate loop.** The command runs in this order:
  1. It stops when nothing was found.
  2. It asks for confirmation unless `--yes` is given. The answer is
     lower-cased and compared with `y`.
  3. It uploads every file that passes the sniff, recording
     job id → path in an insertion-ordered dictionary. A repeated job id
     keeps its place and takes the new path.
  4. It stops when no job was created.
  5. It polls each job at most 120 times. The job's file is overwritten with
     the body of the first status-200 response.

The environment, the network, the clock and the file system are inputs.
Environment variables are `Option<string>` parameters. The validator's
verdict on a file's content is a predicate on paths. The upload call is a
function from path to optional job id. The download server is a function
from (job id, attempt number) to a response. The local files are a map from
path to bytes.

Paths are sequences of name components relative to the scan root. The
source uses `os.path.relpath` strings.

Modules:
- `Wrappers`: `Option` and `Result`.
- `Text`: substring search, `endswith`, `count`, `rstrip`, `lower`, `split`
  and `join`.
- `Seqs`: distinctness.
- `Validator` and `ValidatorCases`: the sniff.
- `Scanner`, `ScannerProofs` and `ScannerCases`: the search.
- `Urls`, `UrlsProofs` and `UrlsCases`: the endpoints.
- `Token`: the token and the header.
- `Orchestrator` and `OrchestratorProofs`: the populate command.

## Model

| member | source | states |
|---|---|---|
| Validator.IsValidPoContent | client/pofile.py:73-84 | content is accepted exactly when each of `"Language: `, `msgid "` and `msgstr "` occurs in it as a substring |
| Validator.MissingMarkerRejected | client/pofile.py:75-83 | content lacking any one of the three markers is rejected, and so is empty content |
| ValidatorCases.FullIsValid | tests/test_validation.py:10-21 | a complete header plus one message is accepted |
| ValidatorCases.MinimalIsValid | tests/test_validation.py:62-72 | a header with only the language line plus an empty message is accepted |
| ValidatorCases.NoLanguageIsInvalid | tests/test_validation.py:22-33 | without the `"Language: ` key the content is rejected |
| ValidatorCases.NoMsgidIsInvalid | tests/test_validation.py:34-44 | without any `msgid "` the content is rejected |
| ValidatorCases.NoMsgstrIsInvalid | tests/test_validation.py:45-55 | without any `msgstr "` the content is rejected |
| ValidatorCases.OnlyOneMarkerIsInvalid | tests/test_validation.py:73-94 | content holding only the language line, only a `msgid` or only a `msgstr` is rejected |
| Text.Contains | client/pofile.py:75 | Python's `in` on strings agrees with the existence of an index where the substring occurs |
| Text.StripTrailing | client/pofile.py:58 | `rstrip(sep)` gives a prefix that does not end in the separator, and everything it removed was a separator |
| Scanner.PoFilesIn | client/pofile.py:65-69 | the paths collected from one directory are exactly its files ending in `.po`, each placed below that directory |
| Scanner.FindPoFiles | client/pofile.py:56-70 | the search as written finds nothing for an empty top path, which the walk treats as a missing directory |
| Scanner.FoundPoNames | client/pofile.py:65-69 | every path the search as written reports names a file ending in `.po` |
| Scanner.FindPoFilesByLevel | client/pofile.py:56-70 | every path the corrected search reports names a file ending in `.po` whose directory lies at most the limit below the top |
| ScannerProofs.TrailingSepsCount | client/pofile.py:58 | the separators `rstrip` removes from the top path are exactly its trailing ones, and there are none exactly when the path is empty or does not end in a separator |
| ScannerProofs.AsWrittenFoundIff | client/pofile.py:56-70 | on a POSIX system (separator `/`), for every top path and every tree whose entry names are non-empty and free of separators, the search as written reports exactly the `.po` files of the tree whose directory it places within the limit: the top at its number `t` of trailing separators, a directory `n >= 1` levels down at `n + t - 1` (at `n` when `t` is 0); an empty top path reports nothing |
| ScannerProofs.PlainTopFoundIff | client/pofile.py:56-70 | for a top path without a trailing separator, the search as written reports exactly the `.po` files of the tree whose directory lies at most the limit below the top |
| ScannerProofs.AfterSepShape | client/pofile.py:58-63 | for a top ending in `t >= 1` separators, the search as written lists the top's own `.po` files when `t` is within the limit, then what a search that never enters over-deep directories lists below the top at the limit lowered by `t - 1` |
| ScannerProofs.SkipEqualsPrune | client/pofile.py:60-63 | for a top path without a trailing separator and entry names that are non-empty and free of separators, skipping over-deep directories while still walking them gives the same list, in the same order, as a search that never enters them |
| ScannerProofs.PlainTopSearchesAgree | client/pofile.py:56-70 | for a top path without a trailing separator, the search as written and the corrected search give the same list |
| ScannerProofs.WalkDepths | client/pofile.py:58-61 | for a top path without a trailing separator and valid entry names, every directory the walk reports has separator count minus base count equal to its number of components below the top |
| ScannerProofs.WalkChildrenAfterSep | client/pofile.py:58-61 | below a top that ends in a separator, joining a name adds no separator, so every directory under it is counted one level shallower than under a plain top |
| ScannerProofs.AsWrittenDepthMonotone | client/pofile.py:61-63 | for any top path and tree, raising the limit never loses a file from the search as written; at limit 0 it finds the top's own `.po` files when the top has no trailing separator and nothing when it has one |
| ScannerProofs.AsWrittenFoundDistinct | client/pofile.py:60-69 | for any top path, when no directory lists a name twice, the search as written reports no file twice |
| ScannerProofs.FoundIff | client/pofile.py:56-70 | the corrected search reports exactly the `.po` files of the tree at most the limit below the top, whatever the spelling of the top path |
| ScannerProofs.DepthMonotone | client/pofile.py:62 | for the corrected search only: raising the limit never loses a file, and limit 0 finds exactly the top directory's own `.po` files |
| ScannerProofs.FoundDistinct | client/pofile.py:60-69 | for the corrected search only: when no directory lists a name twice, no file is reported twice |
| ScannerProofs.EmptyTreeFindsNothing | client/pofile.py:56-70 | an empty directory yields no paths under either depth rule, for any top path |
| ScannerCases.ChainScenario | tests/test_find.py:6-64 | on the six-level chain, limits 5, 3, 1 and 0 find three, two, one and no files |
| ScannerCases.TrailingSeparatorMissesTopFiles | client/pofile.py:58-62 | with top `po/` and limit 0 the search as written misses the top's own `a.po`, which the corrected search reports |
| Urls.ApiDomainUrl | client/pofile.py:35-39 | the domain is the value of `POFILE_API_DOMAIN_URL` when it is set, even when empty, and `https://pofile.io` otherwise |
| Urls.JoinAbsolutePath | client/pofile.py:45 | `urljoin` with an empty base returns the reference; it fails exactly when splitting a non-empty base fails, and then only with `Invalid IPv6 URL` |
| Urls.UploadEndpoint | client/pofile.py:49-53 | building the upload endpoint fails only with `Invalid IPv6 URL` |
| Urls.DownloadEndpoint | client/pofile.py:42-46 | building a download endpoint fails only with `Invalid IPv6 URL` |
| UrlsProofs.ParseOrigin | client/pofile.py:45 | a base `scheme://host…` fails with `Invalid IPv6 URL` when the host has one square bracket without the other, and parses to the lower-cased scheme and the host when the host is ASCII without brackets |
| UrlsProofs.ResolvePlainPath | client/pofile.py:45 | dot-segment removal leaves a path of at least two segments, none of them `.` or `..`, unchanged; empty segments are kept |
| UrlsProofs.JoinPlainPath | client/pofile.py:45 | joining such a path onto `scheme://host` plus any tail, for an ASCII host without brackets, gives `scheme://host` plus the path, with the scheme lower-cased and the tail dropped |
| UrlsProofs.UploadEndpointOfOrigin | client/pofile.py:49-53 | with domain `scheme://host…` and an ASCII host without brackets, the upload endpoint is `scheme://host/api/upload/` |
| UrlsProofs.DownloadEndpointOfOrigin | client/pofile.py:42-46 | with the same kind of domain, the download endpoint of a job id `J` free of `?`, `#`, tab and line breaks and with no `/`-separated piece equal to `.` or `..` is `scheme://host/api/download/J/`; `J` may be empty or contain `/` |
| UrlsProofs.UnbalancedHostRaises | client/pofile.py:42-53 | a domain whose host has an unmatched bracket makes both endpoint builders raise |
| UrlsProofs.SchemelessEndpoints | client/pofile.py:42-53 | a domain that is non-empty, has no `:`, does not start with `//` or with a control character or space, and has no tab or line break yields the bare paths `/api/upload/` and `/api/download/J/`, for a job id `J` free of `?`, `#`, tab and line breaks and with no `/`-separated piece equal to `.` or `..` |
| UrlsProofs.EmptyDomainGivesPaths | client/pofile.py:38-53 | an empty `POFILE_API_DOMAIN_URL` yields the bare paths |
| UrlsProofs.DotDotJobIdClimbs | client/pofile.py:42-46 | for an ASCII host without brackets, the job id `..` is resolved as a dot segment, so its endpoint is `scheme://host/api/` |
| UrlsCases.DefaultUploadEndpoint | tests/test_api_urls.py:34-36 | with no domain configured the upload endpoint is `https://pofile.io/api/upload/` |
| UrlsCases.DefaultDownloadEndpoint | tests/test_api_urls.py:19-24 | with no domain configured the sample job's endpoint is `https://pofile.io/api/download/<id>/` |
| UrlsCases.CustomUploadEndpoint | tests/test_api_urls.py:37-40 | with `https://test.pofile.io` configured the upload endpoint is on that host |
| UrlsCases.CustomDownloadEndpoint | tests/test_api_urls.py:25-31 | with `https://test.pofile.io` configured the sample job's endpoint is on that host |
| UrlsCases.DefaultDotDotEndpoint | client/pofile.py:37-46 | with the default domain the job id `..` gets `https://pofile.io/api/` |
| UrlsCases.DoubleSlashKept | client/pofile.py:37-46 | with the default domain the job id `a//b` keeps its empty piece: `https://pofile.io/api/download/a//b/` |
| Token.GetApiToken | client/pofile.py:22-27 | a non-empty explicit token is returned unchanged, otherwise the environment's value (possibly absent); the result is non-empty exactly when one of them is |
| Token.Headers | client/pofile.py:104-106 | the request has an `Authorization` field, and no other, exactly when the token is non-empty; its value is `Bearer ` followed by the token |
| Token.HeaderCarriesToken | client/pofile.py:104-106 | the upload is authorised exactly when the command line or the environment supplies a non-empty token, and the token read back from the header (by stripping `Bearer `) is the one the command line or else the environment gave |
| Orchestrator.Lookup | client/pofile.py:216 | looking up a job id succeeds exactly when some entry has it, and yields that entry's path when ids are unique |
| Orchestrator.Assign | client/pofile.py:198 | dictionary assignment keeps ids unique, makes the id map to the new path, and leaves every other id's lookup unchanged |
| Orchestrator.UploadAll | client/pofile.py:187-198 | the job map has unique ids, and each entry is a found file that passed the sniff and whose upload returned that non-empty id |
| Orchestrator.PollFrom | client/pofile.py:211-222 | polling makes at most 120 requests; it returns the body of the first status-200 response, with every earlier response not 200, or nothing after 120 failures |
| Orchestrator.PollAll | client/pofile.py:208-222 | polling all jobs records one request count per job; it writes at most as many downloads as there are jobs, only to job files, and leaves every file outside the job map untouched; `OrchestratorProofs.PollAllJob` shows each job's file is written at most once |
| Orchestrator.PollAllAttempts | client/pofile.py:208-222 | the request count recorded for each job, in map order, is what that job's own poll loop makes, so at most 120 per job and at most 120 times the number of jobs in all |
| Orchestrator.Populate | client/pofile.py:173-222 | the run stops with nothing found exactly when the search is empty and aborts exactly when unconfirmed; a completed run has a non-empty job map with unique ids, records one request count per job, each at most 120, and writes only found files that passed the sniff |
| Orchestrator.Confirmed | client/pofile.py:179-185 | the run proceeds exactly when `--yes` is given or the answer is `y` or `Y` |
| Orchestrator.Run | client/pofile.py:162-222 | an empty directory argument finds nothing; a completed run writes only files the search as written reported, each ending in `.po` and passing the sniff |
| OrchestratorProofs.UploadAllSpec | client/pofile.py:187-198 | an id is in the job map exactly when some found file uploaded as it, and maps to the last such file |
| OrchestratorProofs.JobsAreAcceptedFiles | client/pofile.py:189-198 | when accepted files get distinct job ids, the files in the job map are exactly the accepted found files |
| OrchestratorProofs.UploadAllDistinct | client/pofile.py:189-198 | distinct found paths give a job map with distinct paths |
| OrchestratorProofs.PollAllJob | client/pofile.py:208-218 | with distinct paths, each job's file is written once with the job's first ready body when there is one, and otherwise left as it was |
| OrchestratorProofs.ExhaustedPollLeavesFile | client/pofile.py:211-222 | a job whose 120 polls all fail costs exactly 120 requests and its file is neither written nor changed |
| OrchestratorProofs.PopulateOutcome | client/pofile.py:172-208 | the run stops with nothing found exactly when the search is empty, aborts exactly when unconfirmed, does nothing exactly when no file is accepted, and otherwise polls the uploaded jobs |
| OrchestratorProofs.PopulateWrites | client/pofile.py:187-222 | a completed run writes no file outside the job map and leaves it unchanged; each job's file gets the effect of that job's poll |
| OrchestratorProofs.RunWritesFoundFilesOnce | client/pofile.py:162-222 | for any directory argument and a tree without repeated names, a completed run writes each file at most once; a written file is a `.po` file of the tree whose directory the search as written places within the limit (at most the limit below the top when the top has no trailing separator), that passed the sniff and uploaded; an unwritten file is unchanged |

## Left out

- Printing, argument parsing, `sleep` between polls, HTTP, JSON decoding and
  file reads and writes are not modelled. The file system is a map, and the
  network and validator are input functions.
- Any exception ends the whole command, and the model describes only runs
  without one. The places that can raise are:
  - the `input()` prompt (client/pofile.py:180), at end of input;
  - the read in `is_probably_po_file` (client/pofile.py:89-90), for a
    missing file or a `UnicodeDecodeError`;
  - the upload endpoint built in `send_to_pofile_service`
    (client/pofile.py:99), which raises `ValueError("Invalid IPv6 URL")` for
    a domain whose host has an unmatched bracket
    (`UrlsProofs.UnbalancedHostRaises`), at the first accepted file;
  - the `open` of the file to upload (client/pofile.py:101);
  - the upload request and the `response.json()["job_id"]` lookup
    (client/pofile.py:108-117);
  - the download endpoint (client/pofile.py:209), with the same
    `Invalid IPv6 URL` error;
  - the download request (client/pofile.py:212);
  - the write of a downloaded file (client/pofile.py:217).

  `OrchestratorProofs.UploadAllSpec`, `OrchestratorProofs.PollAllJob` and
  `Orchestrator.Run` state what happens when none of these raises. The
  `upload` and `server` inputs are total, so an abort partway through the
  uploads or the polls cannot be expressed.
- `is_probably_po_file` (client/pofile.py:87-92) reads a file and calls the
  sniff. The read is left out, so the populate loop takes the verdict per
  path as a parameter. The sniff itself is `Validator.IsValidPoContent`.
- `send_to_pofile_service` (client/pofile.py:95-124) becomes the `upload`
  input. Only its header is modelled (`Token.Headers`). Its status check
  reduces to "None when not 200", which the `upload` function expresses. A
  job id is a string; a non-string `job_id` in the response is not modelled.
- The download server is keyed by job id rather than by the download URL.
  The URL is a function of the job id, proved separately in `UrlsProofs`.
- `get_default_dir_depth` (client/pofile.py:30-32) and `DEFAULT_DIR_DEPTH`
  are not modelled. The environment value would reach argparse as a string
  default, and the depth limit is a parameter here.
- The message at client/pofile.py:224 names only the last file polled. It
  is output only and is not modelled.
- `Scanner.Sep` is `/` and `Scanner.JoinPath` is `posixpath.join`: the
  model describes a POSIX system. On Windows `os.sep` is `\` and
  `os.path.join` is `ntpath.join`, so the separator counts at
  client/pofile.py:58 and :61 differ (a top spelled `po/` has no `\` to
  count); the search lemmas and the Findings row are about POSIX only.
- Error paths of the walk (unreadable directories, symbolic links) and the
  conversion of relative paths to strings are not modelled. Paths are
  component sequences.
- The search lemmas about the walk's depth require a tree whose entry names
  are non-empty and free of separators, as every file system gives them.
- `Urls.JoinAbsolutePath` covers only references that begin with one `/`,
  which are the only ones the client builds. General `urljoin` on relative
  references is not modelled.
- `Urls.Unparse` follows `urlunsplit` as CPython 3.12.3 writes it: a
  location `//` is added when the location is non-empty, or when the scheme
  uses one and the path does not start with `//`. Later 3.12 releases
  split this test into three branches, so they can rebuild a base without
  a location differently. For example, with domain `https:` and job id
  `../../../x` this model gives `https:///x/`. The newer branches are not
  modelled.
- `Urls.ParseBase` checks only bracket balance in the location. CPython's
  further validation of bracketed hosts (IPv6 literals) and of non-ASCII
  locations is not modelled.
- `UrlsProofs.ParseOrigin` says nothing about hosts with balanced brackets or
  non-ASCII hosts, because those further checks are not modelled.
- `UrlsProofs.JoinPlainPath` covers only ASCII hosts without brackets, for
  the same reason.
- `UrlsProofs.UploadEndpointOfOrigin` covers only ASCII hosts without
  brackets, for the same reason.
- `UrlsProofs.DownloadEndpointOfOrigin` covers only ASCII hosts without
  brackets, and job ids free of `?`, `#`, tab and line breaks with no piece
  `.` or `..`. Job ids are whatever the service returns.
  `UrlsProofs.DotDotJobIdClimbs` and `UrlsProofs.UnbalancedHostRaises` show
  what happens outside that case.
- `UrlsProofs.SchemelessEndpoints` covers only domains with no `:` at all,
  no leading control character or space, no tab or line break, and not
  starting with `//`, and only job ids as in
  `UrlsProofs.DownloadEndpointOfOrigin`. A domain such as `1x:y`, which
  has a `:` but no valid scheme, is not covered, and a job id `..` gives
  `/api/` rather than `/api/download/../`.
- `UrlsProofs.DotDotJobIdClimbs` covers only ASCII hosts without brackets.
- `Text.Lower` lower-cases ASCII letters only. Python's `str.lower` also
  maps other Unicode letters. Only `Y` lower-cases to `y`, so
  `Orchestrator.Confirmed` agrees with the source.
- `OrchestratorProofs.JobsAreAcceptedFiles` requires that accepted files get
  distinct job ids. When two files get the same id, the dictionary keeps only
  the later one. `OrchestratorProofs.UploadAllSpec` states that general case.
- `ScannerProofs.SkipEqualsPrune` holds only for a top path without a
  trailing separator. `ScannerProofs.AfterSepShape` states the list for a
  top that has them.
- `ScannerProofs.PlainTopFoundIff` requires a top path without a trailing
  separator. `ScannerProofs.AsWrittenFoundIff` covers every top path.
- `ScannerProofs.DepthMonotone` and `ScannerProofs.FoundDistinct` are about
  the corrected search. `ScannerProofs.AsWrittenDepthMonotone` and
  `ScannerProofs.AsWrittenFoundDistinct` state the same for the search as
  written.

## Findings

| source | as written | input that shows it | evidently intended | confidence | as-written member | corrected member |
|---|---|---|---|---|---|---|
| client/pofile.py:58-62 | on a POSIX system (separator `/`), the base depth is counted after stripping trailing separators from `directory`, but the walk reports the top as spelled and joins the first names onto it without adding a separator. With one trailing separator only the top is miscounted, at depth 1; with `t >= 2` the top is counted at depth `t` and every directory below it `t - 1` levels too deep | `find_po_files("po/", dir_depth=0)` on a directory holding only `a.po` returns `[]` | depth is the number of components below the top, so `a.po` is found at limit 0 | not executed | ScannerCases.TrailingSeparatorMissesTopFiles | ScannerProofs.FoundIff |

`ScannerProofs.AsWrittenFoundIff` gives the depth the search as written
assigns for every spelling of the top. `Orchestrator.Run` follows `main`
(client/pofile.py:172) and calls the search as written;
`ScannerProofs.PlainTopSearchesAgree` shows that for a top without a trailing
separator, such as the default `.`, the corrected search
`Scanner.FindPoFilesByLevel` gives the same list.

=== FILE: orchestrator.dfy ===
/**
  The upload/poll/write part of the `populate` command, with its network
  and file-system effects replaced by inputs:

  - `isValid` is the validator's verdict on each found file,
  - `upload` is what the upload call returns for each file (a job id, or
    None when the service answered with an error),
  - `server(j, a)` is the response to the `a`-th download poll of job `j`,
  - the file system is a map from paths (relative to the scan root) to bytes.

  Uploading folds over the found paths in order, recording job id -> path
  in an insertion-ordered map; polling then visits the jobs in that order,
  making at most `MaxPollsPerJob` attempts each and overwriting the job's
  file with the body of the first status-200 response.
*/
module Orchestrator {
  import opened Wrappers
  import opened Scanner
  import opened Text

  /** One poll per second for at most this many seconds. */
  const MaxPollsPerJob: nat := 120
  const StatusOk: int := 200

  newtype byte = x: int | 0 <= x < 256
  type Bytes = seq<byte>
  type JobId = string
  type FileSystem = map<Path, Bytes>

  datatype Response = Response(status: int, content: Bytes)

  /** One entry of the job map: the job the service created for the file at `path`. */
  datatype Job = Job(id: JobId, path: Path)

  /** The job map: a dictionary whose keys keep the order of their first insertion. */
  type JobMap = seq<Job>

  predicate UniqueIds(m: JobMap) {
    forall i, k | 0 <= i < k < |m| :: m[i].id != m[k].id
  }

  /** Dictionary lookup. */
  function Lookup(m: JobMap, id: JobId): (r: Option<Path>)
    ensures r.Some? <==> exists i | 0 <= i < |m| :: m[i].id == id
    ensures UniqueIds(m) ==> forall i | 0 <= i < |m| && m[i].id == id :: r == Some(m[i].path)
  {
    if |m| == 0 then None
    else if m[0].id == id then Some(m[0].path)
    else
      assert forall i | 1 <= i < |m| :: m[i] == m[1..][i - 1];
      Lookup(m[1..], id)
  }

  function JobPaths(m: JobMap): (r: seq<Path>)
    ensures |r| == |m| && forall i | 0 <= i < |m| :: r[i] == m[i].path
  {
    seq(|m|, i requires 0 <= i < |m| => m[i].path)
  }

  lemma TailPaths(m: JobMap)
    requires |m| > 0
    ensures JobPaths(m[1..]) == JobPaths(m)[1..]
  {
  }

  /**
    Dictionary assignment `m[id] = path`: an existing key keeps its place and
    takes the new value; a new key goes at the end.
  */
  function Assign(m: JobMap, id: JobId, path: Path): (r: JobMap)
    ensures UniqueIds(m) ==> UniqueIds(r)
    ensures UniqueIds(m) ==> Lookup(r, id) == Some(path)
    ensures forall other | other != id :: Lookup(r, other) == Lookup(m, other)
    ensures forall x | x in r :: x == Job(id, path) || x in m
  {
    if |m| == 0 then [Job(id, path)]
    else if m[0].id == id then [Job(id, path)] + m[1..]
    else
      var rest := Assign(m[1..], id, path);
      assert forall i | 1 <= i < |m| :: m[i] == m[1..][i - 1];
      assert UniqueIds(m) ==> forall x | x in rest :: x.id != m[0].id by {
        if UniqueIds(m) {
          forall x | x in rest ensures x.id != m[0].id {
            if x in m[1..] {
              var t :| 0 <= t < |m[1..]| && m[1..][t] == x;
              assert m[t + 1] == x;
            }
          }
        }
      }
      [m[0]] + rest
  }

  /** The file at `p` passed validation and its upload returned the non-empty job id `id`. */
  predicate UploadedAs(p: Path, id: JobId, isValid: Path -> bool, upload: Path -> Option<JobId>) {
    isValid(p) && upload(p) == Some(id) && id != ""
  }

  /** One turn of the upload loop: skip an invalid file or a failed upload, else record the job. */
  function UploadStep(m: JobMap, p: Path, isValid: Path -> bool, upload: Path -> Option<JobId>): JobMap {
    if !isValid(p) then m
    else
      match upload(p)
      case Some(id) => if id != "" then Assign(m, id, p) else m
      case None => m
  }

  /** Later entries never disturb the uniqueness of ids, and every entry added is a file of `paths` uploaded under its id. */
  function UploadLoop(m: JobMap, paths: seq<Path>, isValid: Path -> bool, upload: Path -> Option<JobId>): (r: JobMap)
    ensures UniqueIds(m) ==> UniqueIds(r)
    ensures forall x | x in r :: x in m || (x.path in paths && UploadedAs(x.path, x.id, isValid, upload))
    decreases |paths|
  {
    if |paths| == 0 then m
    else UploadLoop(UploadStep(m, paths[0], isValid, upload), paths[1..], isValid, upload)
  }

  /** The upload phase: the job map built from the found paths, starting empty. */
  function UploadAll(paths: seq<Path>, isValid: Path -> bool, upload: Path -> Option<JobId>): (r: JobMap)
    ensures UniqueIds(r)
    ensures forall x | x in r :: x.path in paths && UploadedAs(x.path, x.id, isValid, upload)
  {
    UploadLoop([], paths, isValid, upload)
  }

  /** The outcome of polling one job: the first ready body, if any, and the number of requests made. */
  datatype PollResult = PollResult(content: Option<Bytes>, attempts: nat)

  /** The poll loop for job `id`, from attempt number `a` on. */
  function PollFrom(server: (JobId, nat) -> Response, id: JobId, a: nat): (r: PollResult)
    requires a <= MaxPollsPerJob
    ensures a <= r.attempts <= MaxPollsPerJob
    ensures forall b | a <= b < r.attempts - 1 :: server(id, b).status != StatusOk
    ensures r.content.Some? ==>
      a < r.attempts && server(id, r.attempts - 1).status == StatusOk
      && r.content.value == server(id, r.attempts - 1).content
    ensures r.content.None? ==>
      r.attempts == MaxPollsPerJob && forall b | a <= b < MaxPollsPerJob :: server(id, b).status != StatusOk
    decreases MaxPollsPerJob - a
  {
    if a == MaxPollsPerJob then PollResult(None, a)
    else
      var response := server(id, a);
      if response.status == StatusOk then PollResult(Some(response.content), a + 1)
      else PollFrom(server, id, a + 1)
  }

  function PollJob(server: (JobId, nat) -> Response, id: JobId): PollResult {
    PollFrom(server, id, 0)
  }

  /** A download written over a local file. */
  datatype Write = Write(path: Path, content: Bytes)

  /** How many of `writes` went to `p`. */
  function WritesTo(writes: seq<Write>, p: Path): nat {
    if |writes| == 0 then 0
    else (if writes[0].path == p then 1 else 0) + WritesTo(writes[1..], p)
  }

  /** The sum of a sequence of counts. */
  function Sum(xs: seq<nat>): nat {
    if |xs| == 0 then 0 else xs[0] + Sum(xs[1..])
  }

  /** The files after polling, the downloads written, and the requests made for each job in map order. */
  datatype PollOutcome = PollOutcome(fs: FileSystem, writes: seq<Write>, attempts: seq<nat>) {
    /** The number of download requests made in all. */
    const polls: nat := Sum(attempts)
  }

  /** `attempts` lists, job by job in map order, how many requests polling that job makes. */
  ghost predicate PerJobAttempts(attempts: seq<nat>, jobs: JobMap, server: (JobId, nat) -> Response) {
    && |attempts| == |jobs|
    && forall i | 0 <= i < |jobs| :: attempts[i] == PollJob(server, jobs[i].id).attempts
  }

  lemma PerJobCons(jobs: JobMap, server: (JobId, nat) -> Response, rest: seq<nat>)
    requires |jobs| > 0 && PerJobAttempts(rest, jobs[1..], server)
    ensures PerJobAttempts([PollJob(server, jobs[0].id).attempts] + rest, jobs, server)
  {
    var attempts := [PollJob(server, jobs[0].id).attempts] + rest;
    forall i | 1 <= i < |jobs| ensures attempts[i] == PollJob(server, jobs[i].id).attempts {
      assert attempts[i] == rest[i - 1] && jobs[i] == jobs[1..][i - 1];
    }
  }

  /** No job is polled more than the per-job budget, so the total is at most the budget times the number of jobs. */
  lemma {:induction false} PerJobBound(attempts: seq<nat>, jobs: JobMap, server: (JobId, nat) -> Response)
    requires PerJobAttempts(attempts, jobs, server)
    ensures forall i | 0 <= i < |attempts| :: attempts[i] <= MaxPollsPerJob
    ensures Sum(attempts) <= MaxPollsPerJob * |attempts|
    decreases |attempts|
  {
    if |attempts| > 0 {
      assert PerJobAttempts(attempts[1..], jobs[1..], server) by {
        forall i | 0 <= i < |jobs| - 1 ensures attempts[1..][i] == PollJob(server, jobs[1..][i].id).attempts {
          assert attempts[1..][i] == attempts[i + 1] && jobs[1..][i] == jobs[i + 1];
        }
      }
      PerJobBound(attempts[1..], jobs[1..], server);
    }
  }

  /** The polling phase: each job in map order, its file overwritten on its first ready response. */
  function PollAll(jobs: JobMap, server: (JobId, nat) -> Response, fs: FileSystem): (r: PollOutcome)
    ensures |r.attempts| == |jobs|
    ensures |r.writes| <= |jobs|
    ensures forall w | w in r.writes :: w.path in JobPaths(jobs)
    ensures forall p | p !in JobPaths(jobs) :: (p in r.fs <==> p in fs) && (p in fs ==> r.fs[p] == fs[p])
  {
    if |jobs| == 0 then PollOutcome(fs, [], [])
    else
      var job := jobs[0];
      var result := PollJob(server, job.id);
      var written := if result.content.Some? then [Write(job.path, result.content.value)] else [];
      var fs1 := if result.content.Some? then fs[job.path := result.content.value] else fs;
      var rest := PollAll(jobs[1..], server, fs1);
      TailPaths(jobs);
      PollOutcome(rest.fs, written + rest.writes, [result.attempts] + rest.attempts)
  }

  /**
    Polling all jobs makes, for each job in map order, the requests of that
    job's own poll loop: at most the budget per job, so at most the budget
    times the number of jobs in all.
  */
  lemma {:induction false} PollAllAttempts(jobs: JobMap, server: (JobId, nat) -> Response, fs: FileSystem)
    ensures PerJobAttempts(PollAll(jobs, server, fs).attempts, jobs, server)
    ensures forall i | 0 <= i < |jobs| :: PollAll(jobs, server, fs).attempts[i] <= MaxPollsPerJob
    ensures PollAll(jobs, server, fs).polls <= MaxPollsPerJob * |jobs|
    decreases |jobs|
  {
    if |jobs| > 0 {
      var first := PollJob(server, jobs[0].id);
      var fs1 := if first.content.Some? then fs[jobs[0].path := first.content.value] else fs;
      var rest := PollAll(jobs[1..], server, fs1).attempts;
      PollAllAttempts(jobs[1..], server, fs1);
      PerJobCons(jobs, server, rest);
      assert PollAll(jobs, server, fs).attempts == [first.attempts] + rest;
      PerJobBound(PollAll(jobs, server, fs).attempts, jobs, server);
    }
  }

  /** How the run ended. */
  datatype RunOutcome =
    | NoFilesFound
    | Aborted
    | NothingToPopulate
    | Completed(jobs: JobMap, outcome: PollOutcome)

  /**
    The populate command after its search: stop if nothing was found or the
    user did not confirm; upload; stop if no job was created; else poll.
  */
  function Populate(
    paths: seq<Path>, confirmed: bool,
    isValid: Path -> bool, upload: Path -> Option<JobId>,
    server: (JobId, nat) -> Response, fs: FileSystem): (r: RunOutcome)
    ensures r.NoFilesFound? <==> |paths| == 0
    ensures r.Aborted? <==> |paths| > 0 && !confirmed
    ensures r.Completed? ==>
      && |r.jobs| > 0 && UniqueIds(r.jobs)
      && |r.outcome.attempts| == |r.jobs|
      && (forall i | 0 <= i < |r.jobs| :: r.outcome.attempts[i] <= MaxPollsPerJob)
      && r.outcome.polls <= MaxPollsPerJob * |r.jobs|
      && forall w | w in r.outcome.writes :: w.path in paths && isValid(w.path)
  {
    if |paths| == 0 then NoFilesFound
    else if !confirmed then Aborted
    else
      var jobs := UploadAll(paths, isValid, upload);
      if |jobs| == 0 then NothingToPopulate
      else
        PollAllAttempts(jobs, server, fs);
        Completed(jobs, PollAll(jobs, server, fs))
  }

  /** The confirmation step: `--yes` skips the prompt; otherwise the lower-cased answer must be `y`. */
  function Confirmed(yes: bool, answer: string): (c: bool)
    ensures c <==> yes || answer == "y" || answer == "Y"
  {
    assert Lower(answer) == "y" ==> LowerChar(answer[0]) == 'y';
    yes || Lower(answer) == "y"
  }

  /**
    The whole populate command over a directory tree: search to the depth
    limit as the search is written, confirm, upload, poll.
  */
  function Run(
    directory: string, tree: Dir, dirDepth: int, yes: bool, answer: string,
    isValid: Path -> bool, upload: Path -> Option<JobId>,
    server: (JobId, nat) -> Response, fs: FileSystem): (r: RunOutcome)
    ensures |directory| == 0 ==> r == NoFilesFound
    ensures r.Completed? ==> forall w | w in r.outcome.writes ::
      && w.path in FindPoFiles(directory, tree, dirDepth)
      && |w.path| > 0 && IsPoName(w.path[|w.path| - 1]) && isValid(w.path)
  {
    FoundPoNames(directory, tree, dirDepth);
    Populate(FindPoFiles(directory, tree, dirDepth), Confirmed(yes, answer), isValid, upload, server, fs)
  }
}

=== FILE: orchestrator_proofs.dfy ===
/**
  What the upload and polling phases promise: which files end up in the job
  map, and that each mapped file is overwritten exactly once with the first
  ready download when one arrives within the attempt budget, and is left
  untouched otherwise, while no file outside the job map is ever written.
*/
module OrchestratorProofs {
  import opened Wrappers
  import opened Seqs
  import opened Scanner
  import opened ScannerProofs
  import opened Orchestrator
  import opened Text

  /** The file was accepted for upload: it validated and the service returned a non-empty job id. */
  predicate Accepted(p: Path, isValid: Path -> bool, upload: Path -> Option<JobId>) {
    isValid(p) && upload(p).Some? && upload(p).value != ""
  }

  /** `paths[i]` is the last file in `paths` uploaded under job id `id`. */
  ghost predicate LastUploadedAs(paths: seq<Path>, i: int, id: JobId, isValid: Path -> bool, upload: Path -> Option<JobId>) {
    && 0 <= i < |paths|
    && UploadedAs(paths[i], id, isValid, upload)
    && forall k | i < k < |paths| :: !UploadedAs(paths[k], id, isValid, upload)
  }

  lemma {:induction false} AssignKeepsPathsDistinct(m: JobMap, id: JobId, path: Path)
    requires Distinct(JobPaths(m)) && path !in JobPaths(m)
    ensures Distinct(JobPaths(Assign(m, id, path)))
    decreases |m|, 1
  {
    if |m| == 0 {
    } else if m[0].id == id {
      AssignHeadDistinct(m, id, path);
    } else {
      AssignTailDistinct(m, id, path);
    }
  }

  lemma AssignHeadDistinct(m: JobMap, id: JobId, path: Path)
    requires |m| > 0 && m[0].id == id
    requires Distinct(JobPaths(m)) && path !in JobPaths(m)
    ensures Distinct(JobPaths(Assign(m, id, path)))
  {
    assert JobPaths(Assign(m, id, path)) == [path] + JobPaths(m)[1..];
    DistinctTail(JobPaths(m));
    DistinctAppend([path], JobPaths(m)[1..]);
  }

  lemma {:induction false} AssignTailDistinct(m: JobMap, id: JobId, path: Path)
    requires |m| > 0 && m[0].id != id
    requires Distinct(JobPaths(m)) && path !in JobPaths(m)
    ensures Distinct(JobPaths(Assign(m, id, path)))
    decreases |m|, 0
  {
    var rest := Assign(m[1..], id, path);
    TailPaths(m);
    DistinctTail(JobPaths(m));
    AssignKeepsPathsDistinct(m[1..], id, path);
    HeadNotReassigned(m, id, path);
    DistinctAppend([m[0].path], JobPaths(rest));
    AssignTailPaths(m, id, path);
    DistinctSame(JobPaths(Assign(m, id, path)), [m[0].path] + JobPaths(rest));
  }

  /** Assigning a key other than the first keeps the first entry's path in front. */
  lemma AssignTailPaths(m: JobMap, id: JobId, path: Path)
    requires |m| > 0 && m[0].id != id
    ensures JobPaths(Assign(m, id, path)) == [m[0].path] + JobPaths(Assign(m[1..], id, path))
  {
  }

  /** The first entry's path is not among the rest once a new distinct path is assigned there. */
  lemma HeadNotReassigned(m: JobMap, id: JobId, path: Path)
    requires |m| > 0 && Distinct(JobPaths(m)) && path !in JobPaths(m)
    ensures m[0].path !in JobPaths(Assign(m[1..], id, path))
  {
    TailPaths(m);
    DistinctTail(JobPaths(m));
    AssignPaths(m[1..], id, path);
  }

  /** After an assignment every path in the map is the assigned one or was there before. */
  lemma AssignPaths(m: JobMap, id: JobId, path: Path)
    ensures forall q | q in JobPaths(Assign(m, id, path)) :: q == path || q in JobPaths(m)
  {
    var r := Assign(m, id, path);
    forall q | q in JobPaths(r) ensures q == path || q in JobPaths(m) {
      var t :| 0 <= t < |r| && JobPaths(r)[t] == q;
      assert r[t] in r;
      if r[t] != Job(id, path) {
        var u :| 0 <= u < |m| && m[u] == r[t];
        assert JobPaths(m)[u] == q;
      }
    }
  }

  /** Lookup after the loop: the last file uploaded under `id` wins; with none, the entry is unchanged. */
  lemma {:induction false} UploadLoopLookup(m: JobMap, paths: seq<Path>, id: JobId, isValid: Path -> bool, upload: Path -> Option<JobId>)
    requires UniqueIds(m)
    ensures (forall i | 0 <= i < |paths| :: !UploadedAs(paths[i], id, isValid, upload)) ==>
      Lookup(UploadLoop(m, paths, isValid, upload), id) == Lookup(m, id)
    ensures forall i | LastUploadedAs(paths, i, id, isValid, upload) ::
      Lookup(UploadLoop(m, paths, isValid, upload), id) == Some(paths[i])
    decreases |paths|
  {
    if |paths| > 0 {
      var m1 := UploadStep(m, paths[0], isValid, upload);
      UploadLoopLookup(m1, paths[1..], id, isValid, upload);
      assert Lookup(m1, id) == if UploadedAs(paths[0], id, isValid, upload) then Some(paths[0]) else Lookup(m, id);
      forall i | LastUploadedAs(paths, i, id, isValid, upload)
        ensures Lookup(UploadLoop(m, paths, isValid, upload), id) == Some(paths[i])
      {
        if i > 0 {
          assert LastUploadedAs(paths[1..], i - 1, id, isValid, upload);
        } else {
          assert forall k | 0 <= k < |paths[1..]| :: paths[1..][k] == paths[k + 1];
        }
      }
    }
  }

  /** Some file was uploaded under `id`, so there is a last one. */
  lemma {:induction false} LastExists(paths: seq<Path>, i: int, id: JobId, isValid: Path -> bool, upload: Path -> Option<JobId>)
    requires 0 <= i < |paths| && UploadedAs(paths[i], id, isValid, upload)
    ensures exists k :: LastUploadedAs(paths, k, id, isValid, upload)
    decreases |paths| - i
  {
    if !LastUploadedAs(paths, i, id, isValid, upload) {
      var k :| i < k < |paths| && UploadedAs(paths[k], id, isValid, upload);
      LastExists(paths, k, id, isValid, upload);
    }
  }

  /**
    The job map after uploading: ids are unique; every entry is a found file
    that validated and was uploaded under that id; an id is present iff some
    found file was uploaded under it, and it maps to the last such file.
  */
  lemma UploadAllSpec(paths: seq<Path>, id: JobId, isValid: Path -> bool, upload: Path -> Option<JobId>)
    ensures UniqueIds(UploadAll(paths, isValid, upload))
    ensures forall x | x in UploadAll(paths, isValid, upload) ::
      x.path in paths && UploadedAs(x.path, x.id, isValid, upload)
    ensures Lookup(UploadAll(paths, isValid, upload), id).None? <==>
      forall i | 0 <= i < |paths| :: !UploadedAs(paths[i], id, isValid, upload)
    ensures forall i | LastUploadedAs(paths, i, id, isValid, upload) ::
      Lookup(UploadAll(paths, isValid, upload), id) == Some(paths[i])
  {
    UploadLoopLookup([], paths, id, isValid, upload);
    if exists i :: 0 <= i < |paths| && UploadedAs(paths[i], id, isValid, upload) {
      var i :| 0 <= i < |paths| && UploadedAs(paths[i], id, isValid, upload);
      LastExists(paths, i, id, isValid, upload);
    }
  }

  /**
    When no two accepted files share a job id, the job map's paths are
    exactly the accepted files: invalid files and failed uploads are skipped,
    and every other file is kept.
  */
  lemma JobsAreAcceptedFiles(paths: seq<Path>, isValid: Path -> bool, upload: Path -> Option<JobId>, p: Path)
    requires forall i, k | 0 <= i < k < |paths| && Accepted(paths[i], isValid, upload) && Accepted(paths[k], isValid, upload) ::
      upload(paths[i]) != upload(paths[k])
    ensures p in JobPaths(UploadAll(paths, isValid, upload)) <==> p in paths && Accepted(p, isValid, upload)
  {
    var jobs := UploadAll(paths, isValid, upload);
    if p in JobPaths(jobs) {
      var t :| 0 <= t < |jobs| && JobPaths(jobs)[t] == p;
      UploadAllSpec(paths, jobs[t].id, isValid, upload);
      assert jobs[t] in jobs;
    }
    if p in paths && Accepted(p, isValid, upload) {
      var i :| 0 <= i < |paths| && paths[i] == p;
      var id := upload(p).value;
      assert LastUploadedAs(paths, i, id, isValid, upload);
      UploadAllSpec(paths, id, isValid, upload);
      var t :| 0 <= t < |jobs| && jobs[t].id == id;
      assert JobPaths(jobs)[t] == p;
    }
  }

  /** One upload turn adds at most the file just processed to the job map's paths. */
  lemma UploadStepPaths(m: JobMap, p: Path, isValid: Path -> bool, upload: Path -> Option<JobId>)
    requires Distinct(JobPaths(m)) && p !in JobPaths(m)
    ensures forall q | q in JobPaths(UploadStep(m, p, isValid, upload)) :: q == p || q in JobPaths(m)
    ensures Distinct(JobPaths(UploadStep(m, p, isValid, upload)))
  {
    var m1 := UploadStep(m, p, isValid, upload);
    if m1 != m {
      var id := upload(p).value;
      AssignKeepsPathsDistinct(m, id, p);
      forall q | q in JobPaths(m1) ensures q == p || q in JobPaths(m) {
        var t :| 0 <= t < |m1| && JobPaths(m1)[t] == q;
        assert m1[t] in m1;
        if m1[t] != Job(id, p) {
          var u :| 0 <= u < |m| && m[u] == m1[t];
          assert JobPaths(m)[u] == q;
        }
      }
    }
  }

  lemma {:induction false} UploadLoopDistinct(m: JobMap, paths: seq<Path>, isValid: Path -> bool, upload: Path -> Option<JobId>)
    requires Distinct(JobPaths(m)) && Distinct(paths)
    requires forall q | q in JobPaths(m) :: q !in paths
    ensures Distinct(JobPaths(UploadLoop(m, paths, isValid, upload)))
    decreases |paths|
  {
    if |paths| > 0 {
      DistinctTail(paths);
      UploadStepPaths(m, paths[0], isValid, upload);
      UploadLoopDistinct(UploadStep(m, paths[0], isValid, upload), paths[1..], isValid, upload);
    }
  }

  /** Distinct found files give a job map whose paths are distinct. */
  lemma UploadAllDistinct(paths: seq<Path>, isValid: Path -> bool, upload: Path -> Option<JobId>)
    requires Distinct(paths)
    ensures Distinct(JobPaths(UploadAll(paths, isValid, upload)))
  {
    UploadLoopDistinct([], paths, isValid, upload);
  }

  lemma {:induction false} WritesToAppend(a: seq<Write>, b: seq<Write>, p: Path)
    ensures WritesTo(a + b, p) == WritesTo(a, p) + WritesTo(b, p)
    decreases |a|
  {
    if |a| == 0 {
      assert a + b == b;
    } else {
      assert (a + b)[0] == a[0];
      assert (a + b)[1..] == a[1..] + b;
      WritesToAppend(a[1..], b, p);
    }
  }

  lemma {:induction false} WritesToAbsent(writes: seq<Write>, p: Path)
    requires forall w | w in writes :: w.path != p
    ensures WritesTo(writes, p) == 0
    decreases |writes|
  {
    if |writes| > 0 {
      assert writes[0] in writes;
      WritesToAbsent(writes[1..], p);
    }
  }

  /** `p` has the same presence and bytes in `fs2` as in `fs1`. */
  ghost predicate Unchanged(fs2: FileSystem, fs1: FileSystem, p: Path) {
    (p in fs2 <==> p in fs1) && (p in fs1 ==> fs2[p] == fs1[p])
  }

  /** What polling did to the file `p` whose job polled to `result`, starting from `fs`. */
  ghost predicate JobEffect(out: PollOutcome, fs: FileSystem, p: Path, result: PollResult) {
    && WritesTo(out.writes, p) == (if result.content.Some? then 1 else 0)
    && (result.content.Some? ==> p in out.fs && out.fs[p] == result.content.value)
    && (result.content.None? ==> Unchanged(out.fs, fs, p))
  }

  /** The first job's own poll decides its file, since no later job has the same path. */
  lemma PollAllFirst(jobs: JobMap, server: (JobId, nat) -> Response, fs: FileSystem)
    requires |jobs| > 0 && jobs[0].path !in JobPaths(jobs[1..])
    ensures JobEffect(PollAll(jobs, server, fs), fs, jobs[0].path, PollJob(server, jobs[0].id))
  {
    var job := jobs[0];
    var result := PollJob(server, job.id);
    var written := if result.content.Some? then [Write(job.path, result.content.value)] else [];
    var fs1 := if result.content.Some? then fs[job.path := result.content.value] else fs;
    var rest := PollAll(jobs[1..], server, fs1);
    WritesToAppend(written, rest.writes, job.path);
    WritesToAbsent(rest.writes, job.path);
  }

  /** A later job's effect on its own file survives the first job's turn. */
  lemma PollAllLater(jobs: JobMap, server: (JobId, nat) -> Response, fs: FileSystem, p: Path, result: PollResult)
    requires |jobs| > 0 && p != jobs[0].path
    requires var first := PollJob(server, jobs[0].id);
      var fs1 := if first.content.Some? then fs[jobs[0].path := first.content.value] else fs;
      JobEffect(PollAll(jobs[1..], server, fs1), fs1, p, result)
    ensures JobEffect(PollAll(jobs, server, fs), fs, p, result)
  {
    var job := jobs[0];
    var first := PollJob(server, job.id);
    var written := if first.content.Some? then [Write(job.path, first.content.value)] else [];
    var fs1 := if first.content.Some? then fs[job.path := first.content.value] else fs;
    PollAllStep(jobs, server, fs);
    assert Unchanged(fs1, fs, p);
    EffectThroughTurn(written, PollAll(jobs[1..], server, fs1), PollAll(jobs, server, fs), fs, fs1, p, result);
  }

  /** A turn that neither writes `p` nor changes it passes the later effect on `p` through unchanged. */
  lemma EffectThroughTurn(written: seq<Write>, rest: PollOutcome, out: PollOutcome, fs: FileSystem, fs1: FileSystem, p: Path, result: PollResult)
    requires out.writes == written + rest.writes && out.fs == rest.fs
    requires forall w | w in written :: w.path != p
    requires Unchanged(fs1, fs, p) && JobEffect(rest, fs1, p, result)
    ensures JobEffect(out, fs, p, result)
  {
    WritesToAppend(written, rest.writes, p);
    WritesToAbsent(written, p);
  }

  /** One turn of the polling loop: the first job's write, if any, then the rest of the jobs on the updated files. */
  lemma PollAllStep(jobs: JobMap, server: (JobId, nat) -> Response, fs: FileSystem)
    requires |jobs| > 0
    ensures var first := PollJob(server, jobs[0].id);
      var fs1 := if first.content.Some? then fs[jobs[0].path := first.content.value] else fs;
      var written := if first.content.Some? then [Write(jobs[0].path, first.content.value)] else [];
      && PollAll(jobs, server, fs).writes == written + PollAll(jobs[1..], server, fs1).writes
      && PollAll(jobs, server, fs).fs == PollAll(jobs[1..], server, fs1).fs
  {
    var first := PollJob(server, jobs[0].id);
    var fs1 := if first.content.Some? then fs[jobs[0].path := first.content.value] else fs;
    var written := if first.content.Some? then [Write(jobs[0].path, first.content.value)] else [];
    var rest := PollAll(jobs[1..], server, fs1);
    assert PollAll(jobs, server, fs) == PollOutcome(rest.fs, written + rest.writes, [first.attempts] + rest.attempts);
  }

  /**
    With distinct job paths, polling overwrites each job's file exactly once
    with the body of its first ready response if one comes within the
    budget, and otherwise leaves the file as it was.
  */
  lemma {:induction false} PollAllJob(jobs: JobMap, server: (JobId, nat) -> Response, fs: FileSystem, i: int)
    requires Distinct(JobPaths(jobs)) && 0 <= i < |jobs|
    ensures JobEffect(PollAll(jobs, server, fs), fs, jobs[i].path, PollJob(server, jobs[i].id))
    decreases |jobs|
  {
    assert JobPaths(jobs[1..]) == JobPaths(jobs)[1..];
    DistinctTail(JobPaths(jobs));
    if i == 0 {
      PollAllFirst(jobs, server, fs);
    } else {
      var first := PollJob(server, jobs[0].id);
      var fs1 := if first.content.Some? then fs[jobs[0].path := first.content.value] else fs;
      assert JobPaths(jobs)[i] == jobs[i].path && JobPaths(jobs)[0] == jobs[0].path;
      assert jobs[1..][i - 1] == jobs[i];
      PollAllJob(jobs[1..], server, fs1, i - 1);
      PollAllLater(jobs, server, fs, jobs[i].path, PollJob(server, jobs[i].id));
    }
  }

  /** A job that never answers 200 within the budget leaves its file byte-for-byte unchanged. */
  lemma ExhaustedPollLeavesFile(jobs: JobMap, server: (JobId, nat) -> Response, fs: FileSystem, i: int)
    requires Distinct(JobPaths(jobs)) && 0 <= i < |jobs|
    requires forall a | 0 <= a < MaxPollsPerJob :: server(jobs[i].id, a).status != StatusOk
    ensures PollJob(server, jobs[i].id).attempts == MaxPollsPerJob
    ensures WritesTo(PollAll(jobs, server, fs).writes, jobs[i].path) == 0
    ensures Unchanged(PollAll(jobs, server, fs).fs, fs, jobs[i].path)
  {
    PollAllJob(jobs, server, fs, i);
  }

  /**
    How a populate run ends: nothing found, not confirmed, or no job created
    (in which case no poll is made); otherwise the job map is the upload
    phase's and the polling runs over it.
  */
  lemma PopulateOutcome(
    paths: seq<Path>, confirmed: bool,
    isValid: Path -> bool, upload: Path -> Option<JobId>,
    server: (JobId, nat) -> Response, fs: FileSystem)
    ensures var r := Populate(paths, confirmed, isValid, upload, server, fs);
      && (r.NoFilesFound? <==> |paths| == 0)
      && (r.Aborted? <==> |paths| > 0 && !confirmed)
      && (r.NothingToPopulate? <==>
            |paths| > 0 && confirmed && forall i | 0 <= i < |paths| :: !Accepted(paths[i], isValid, upload))
      && (r.Completed? ==>
            r.jobs == UploadAll(paths, isValid, upload) && r.outcome == PollAll(r.jobs, server, fs)
            && r.outcome.polls <= MaxPollsPerJob * |r.jobs|)
  {
    var jobs := UploadAll(paths, isValid, upload);
    if |paths| > 0 && confirmed {
      if |jobs| == 0 {
        forall i | 0 <= i < |paths| ensures !Accepted(paths[i], isValid, upload) {
          if Accepted(paths[i], isValid, upload) {
            UploadAllSpec(paths, upload(paths[i]).value, isValid, upload);
          }
        }
      } else {
        UploadAllSpec(paths, jobs[0].id, isValid, upload);
        assert jobs[0] in jobs;
        assert Accepted(jobs[0].path, isValid, upload);
      }
    }
  }

  /**
    Over distinct found files, a completed run writes each job's file once
    with its first ready download, or not at all when the budget runs out,
    and never writes a file outside the job map.
  */
  lemma PopulateWrites(
    paths: seq<Path>, confirmed: bool,
    isValid: Path -> bool, upload: Path -> Option<JobId>,
    server: (JobId, nat) -> Response, fs: FileSystem, p: Path)
    requires Distinct(paths)
    ensures var r := Populate(paths, confirmed, isValid, upload, server, fs);
      r.Completed? ==>
        && (p !in JobPaths(r.jobs) ==> WritesTo(r.outcome.writes, p) == 0 && Unchanged(r.outcome.fs, fs, p))
        && forall i | 0 <= i < |r.jobs| && r.jobs[i].path == p ::
              JobEffect(r.outcome, fs, p, PollJob(server, r.jobs[i].id))
  {
    var r := Populate(paths, confirmed, isValid, upload, server, fs);
    if r.Completed? {
      UploadAllDistinct(paths, isValid, upload);
      if p !in JobPaths(r.jobs) {
        WritesToAbsent(r.outcome.writes, p);
      }
      forall i | 0 <= i < |r.jobs| && r.jobs[i].path == p
        ensures JobEffect(r.outcome, fs, p, PollJob(server, r.jobs[i].id))
      {
        PollAllJob(r.jobs, server, fs, i);
      }
    }
  }

  /**
    A completed run over a tree without repeated names writes each file at
    most once; a written file is a `.po` file of the tree whose directory
    the search as written places within the depth limit (for a top without a
    trailing separator: at most the limit below the top), that validated and
    was accepted by the service; every other file keeps its contents.
  */
  lemma RunWritesFoundFilesOnce(
    directory: string, tree: Dir, k: int, yes: bool, answer: string,
    isValid: Path -> bool, upload: Path -> Option<JobId>,
    server: (JobId, nat) -> Response, fs: FileSystem, p: Path)
    requires WellNamed(tree) && DistinctNames(tree)
    ensures var r := Run(directory, tree, k, yes, answer, isValid, upload, server, fs);
      r.Completed? ==>
        && WritesTo(r.outcome.writes, p) <= 1
        && (WritesTo(r.outcome.writes, p) == 1 ==>
              && FileIn(tree, p) && IsPoName(p[|p| - 1])
              && AsWrittenLevel(TrailingSeps(directory), |p| - 1) <= k
              && (PlainTop(directory) ==> |p| - 1 <= k)
              && Accepted(p, isValid, upload)
              && p in r.outcome.fs)
        && (WritesTo(r.outcome.writes, p) == 0 ==> Unchanged(r.outcome.fs, fs, p))
  {
    var paths := FindPoFiles(directory, tree, k);
    var r := Run(directory, tree, k, yes, answer, isValid, upload, server, fs);
    AsWrittenFoundDistinct(directory, tree, k);
    PopulateWrites(paths, Confirmed(yes, answer), isValid, upload, server, fs, p);
    if r.Completed? && p in JobPaths(r.jobs) {
      var i :| 0 <= i < |r.jobs| && JobPaths(r.jobs)[i] == p;
      assert r.jobs[i] in r.jobs;
      UploadAllSpec(paths, r.jobs[i].id, isValid, upload);
      AsWrittenFoundIff(directory, tree, k, p);
      TrailingSepsCount(directory);
    }
  }
}

=== FILE: scanner.dfy ===
/**
  The depth-bounded search for `.po` files (`find_po_files`).

  A directory is modelled as its list of file names and its list of named
  subdirectories, in the order the walk lists them. The walk is the top-down
  walk of the standard library: the top directory, then each subdirectory's
  walk in turn, every directory reported with the path string the walk built
  for it. The source measures a directory's depth as the number of separators
  in that string minus the number in the top path with trailing separators
  stripped; a directory deeper than the limit is skipped for collection but
  still descended into.
*/
module Scanner {
  import opened Text
  import opened Seqs

  const Sep: char := '/'
  const PoSuffix: string := ".po"

  type Name = string

  /** A path relative to the scan root, as its name components. */
  type Path = seq<Name>

  datatype Dir = Dir(files: seq<Name>, subdirs: seq<Entry>)
  datatype Entry = Entry(name: Name, dir: Dir)

  /** One directory as the walk reports it: its path string, its components below the top, its files. */
  datatype WalkStep = WalkStep(root: string, rel: Path, files: seq<Name>)

  predicate IsPoName(name: Name) {
    EndsWith(name, PoSuffix)
  }

  /** The standard library's path join of one component onto a directory path. */
  function JoinPath(top: string, name: Name): string {
    if |name| > 0 && name[0] == Sep then name
    else if |top| == 0 || top[|top| - 1] == Sep then top + name
    else top + [Sep] + name
  }

  /** A directory entry name: not empty and free of separators. */
  predicate ValidName(name: Name) {
    |name| > 0 && Sep !in name
  }

  /** Every subdirectory name in the tree is a valid name. */
  ghost predicate WellNamed(d: Dir)
    decreases d
  {
    forall i | 0 <= i < |d.subdirs| ::
      ValidName(d.subdirs[i].name) && WellNamed(d.subdirs[i].dir)
  }

  /**
    No directory lists a name twice: its files are distinct, its
    subdirectories have distinct names, and so on all the way down.
  */
  ghost predicate DistinctNames(d: Dir)
    decreases d
  {
    && Distinct(d.files)
    && (forall i, j | 0 <= i < j < |d.subdirs| :: d.subdirs[i].name != d.subdirs[j].name)
    && (forall i | 0 <= i < |d.subdirs| :: DistinctNames(d.subdirs[i].dir))
  }

  /** A path string the walk can start from without a trailing separator. */
  predicate PlainTop(top: string) {
    |top| > 0 && top[|top| - 1] != Sep
  }

  /** The file `q` (relative to `d`) exists in the tree. */
  ghost predicate FileIn(d: Dir, q: Path)
    decreases d
  {
    if |q| == 0 then false
    else if |q| == 1 then q[0] in d.files
    else exists i | 0 <= i < |d.subdirs| :: d.subdirs[i].name == q[0] && FileIn(d.subdirs[i].dir, q[1..])
  }

  /** The walk of `d`, reported at path string `top` and components `rel`. */
  function Walk(top: string, d: Dir, rel: Path): (steps: seq<WalkStep>)
    ensures |steps| > 0 && steps[0] == WalkStep(top, rel, d.files)
    decreases d, 1
  {
    [WalkStep(top, rel, d.files)] + WalkChildren(top, d.subdirs, rel)
  }

  function WalkChildren(top: string, subs: seq<Entry>, rel: Path): seq<WalkStep>
    decreases subs, 0
  {
    if |subs| == 0 then []
    else
      Walk(JoinPath(top, subs[0].name), subs[0].dir, rel + [subs[0].name])
      + WalkChildren(top, subs[1..], rel)
  }

  /** The `.po` files among `files`, as paths below `rel`, in listing order. */
  function PoFilesIn(rel: Path, files: seq<Name>): (r: seq<Path>)
    ensures forall p :: p in r <==>
      |p| == |rel| + 1 && p[..|rel|] == rel && p[|rel|] in files && IsPoName(p[|rel|])
  {
    if |files| == 0 then []
    else
      var rest := PoFilesIn(rel, files[1..]);
      assert forall f :: f in files <==> f == files[0] || f in files[1..];
      assert forall p | |p| == |rel| + 1 && p[..|rel|] == rel :: p == rel + [p[|rel|]];
      (if IsPoName(files[0]) then [rel + [files[0]]] else []) + rest
  }

  /** The collection loop: skip over-deep directories, gather `.po` files of the others. */
  function Collect(steps: seq<WalkStep>, baseDepth: int, dirDepth: int): seq<Path>
  {
    if |steps| == 0 then []
    else
      var depth := Count(steps[0].root, Sep) - baseDepth;
      (if depth > dirDepth then [] else PoFilesIn(steps[0].rel, steps[0].files))
      + Collect(steps[1..], baseDepth, dirDepth)
  }

  /** Every path collected from a walk names a file ending in `.po`. */
  lemma {:induction false} CollectPoNames(steps: seq<WalkStep>, baseDepth: int, dirDepth: int)
    ensures forall p | p in Collect(steps, baseDepth, dirDepth) :: |p| > 0 && IsPoName(p[|p| - 1])
    decreases |steps|
  {
    if |steps| > 0 {
      CollectPoNames(steps[1..], baseDepth, dirDepth);
      PoFilesInNames(steps[0].rel, steps[0].files);
    }
  }

  lemma PoFilesInNames(rel: Path, files: seq<Name>)
    ensures forall p | p in PoFilesIn(rel, files) :: |p| == |rel| + 1 && IsPoName(p[|p| - 1])
  {
    forall p | p in PoFilesIn(rel, files) ensures |p| == |rel| + 1 && IsPoName(p[|p| - 1]) {
      assert |p| == |rel| + 1;
    }
  }

  /**
    `find_po_files` as written: `tree` is what lies at the path `directory`.
    An empty path names no directory, which the walk treats as not found.
  */
  function FindPoFiles(directory: string, tree: Dir, dirDepth: int): (r: seq<Path>)
    ensures |directory| == 0 ==> r == []
  {
    if |directory| == 0 then []
    else
      var baseDepth := Count(StripTrailing(directory, Sep), Sep);
      Collect(Walk(directory, tree, []), baseDepth, dirDepth)
  }

  /** Every path the search as written reports names a file ending in `.po`. */
  lemma FoundPoNames(directory: string, tree: Dir, dirDepth: int)
    ensures forall p | p in FindPoFiles(directory, tree, dirDepth) :: |p| > 0 && IsPoName(p[|p| - 1])
  {
    if |directory| > 0 {
      CollectPoNames(Walk(directory, tree, []), Count(StripTrailing(directory, Sep), Sep), dirDepth);
    }
  }

  /** How many separators end `directory`. */
  function TrailingSeps(directory: string): nat {
    if |directory| > 0 && directory[|directory| - 1] == Sep then 1 + TrailingSeps(directory[..|directory| - 1])
    else 0
  }

  /**
    The depth the search as written gives a directory `level` components
    below a top spelled with `trailing` trailing separators: the top itself
    counts every trailing separator, and the first join onto a top that
    already ends in a separator adds none.
  */
  function AsWrittenLevel(trailing: nat, level: nat): nat {
    if level == 0 then trailing
    else if trailing == 0 then level
    else level + trailing - 1
  }

  /** The collection loop with the evidently intended depth: the number of components below the top. */
  function CollectByLevel(steps: seq<WalkStep>, dirDepth: int): seq<Path>
  {
    if |steps| == 0 then []
    else
      (if |steps[0].rel| > dirDepth then [] else PoFilesIn(steps[0].rel, steps[0].files))
      + CollectByLevel(steps[1..], dirDepth)
  }

  /** Every path collected by level names a file ending in `.po` whose directory is within the limit. */
  lemma {:induction false} CollectByLevelPoNames(steps: seq<WalkStep>, dirDepth: int)
    ensures forall p | p in CollectByLevel(steps, dirDepth) :: |p| > 0 && IsPoName(p[|p| - 1]) && |p| - 1 <= dirDepth
    decreases |steps|
  {
    if |steps| > 0 {
      CollectByLevelPoNames(steps[1..], dirDepth);
      PoFilesInNames(steps[0].rel, steps[0].files);
    }
  }

  /** The corrected search: depth counted in components, whatever the spelling of `directory`. */
  function FindPoFilesByLevel(directory: string, tree: Dir, dirDepth: int): (r: seq<Path>)
    ensures forall p | p in r :: |p| > 0 && IsPoName(p[|p| - 1]) && |p| - 1 <= dirDepth
  {
    CollectByLevelPoNames(Walk(directory, tree, []), dirDepth);
    CollectByLevel(Walk(directory, tree, []), dirDepth)
  }

  /** Reference search that prunes: directories deeper than the limit are not entered at all. */
  function Pruned(d: Dir, rel: Path, dirDepth: int): seq<Path>
    decreases d, 1
  {
    if |rel| > dirDepth then []
    else PoFilesIn(rel, d.files) + PrunedChildren(d.subdirs, rel, dirDepth)
  }

  function PrunedChildren(subs: seq<Entry>, rel: Path, dirDepth: int): seq<Path>
    decreases subs, 0
  {
    if |subs| == 0 then []
    else Pruned(subs[0].dir, rel + [subs[0].name], dirDepth) + PrunedChildren(subs[1..], rel, dirDepth)
  }

  /** The file `p` (relative to the top) is one the search must report below `rel`. */
  ghost predicate Reported(d: Dir, rel: Path, dirDepth: int, p: Path) {
    && |rel| < |p|
    && p[..|rel|] == rel
    && FileIn(d, p[|rel|..])
    && IsPoName(p[|p| - 1])
    && |p| - 1 <= dirDepth
  }
}

=== FILE: scanner_cases.dfy ===
/**
  The search's test scenario (a chain of six nested directories with `.po`
  files at depths 1, 3 and 5 and a non-`.po` file at depth 4), the empty
  directory, and the trailing-separator discrepancy of the search as written.
*/
module ScannerCases {
  import opened Text
  import opened Scanner
  import opened ScannerProofs

  const Level6: Dir := Dir([], [])
  const Level5: Dir := Dir(["file3.po"], [Entry("level6", Level6)])
  const Level4: Dir := Dir(["file.txt"], [Entry("level5", Level5)])
  const Level3: Dir := Dir(["file2.po"], [Entry("level4", Level4)])
  const Level2: Dir := Dir([], [Entry("level3", Level3)])
  const Level1: Dir := Dir(["file1.po"], [Entry("level2", Level2)])
  const Chain: Dir := Dir([], [Entry("level1", Level1)])

  const File1: Path := ["level1", "file1.po"]
  const File2: Path := ["level1", "level2", "level3", "file2.po"]
  const File3: Path := ["level1", "level2", "level3", "level4", "level5", "file3.po"]

  lemma ChainWellNamed()
    ensures WellNamed(Chain)
  {
    assert WellNamed(Level6);
    assert WellNamed(Level5);
    assert WellNamed(Level4);
    assert WellNamed(Level3);
    assert WellNamed(Level2);
    assert WellNamed(Level1);
  }

  const R1: Path := ["level1"]
  const R2: Path := ["level1", "level2"]
  const R3: Path := ["level1", "level2", "level3"]
  const R4: Path := ["level1", "level2", "level3", "level4"]
  const R5: Path := ["level1", "level2", "level3", "level4", "level5"]
  const R6: Path := ["level1", "level2", "level3", "level4", "level5", "level6"]

  lemma NamesClassified()
    ensures IsPoName("file1.po") && IsPoName("file2.po") && IsPoName("file3.po")
    ensures !IsPoName("file.txt")
  {
  }

  /** The `.po` files listed at each level of the chain. */
  lemma FilesAtLevel5()
    ensures PoFilesIn(R5, ["file3.po"]) == [File3]
  {
    NamesClassified();
    assert R5 + ["file3.po"] == File3;
  }

  lemma FilesAtLevel4()
    ensures PoFilesIn(R4, ["file.txt"]) == []
  {
    NamesClassified();
  }

  lemma FilesAtLevel3()
    ensures PoFilesIn(R3, ["file2.po"]) == [File2]
  {
    NamesClassified();
    assert R3 + ["file2.po"] == File2;
  }

  lemma FilesAtLevel1()
    ensures PoFilesIn(R1, ["file1.po"]) == [File1]
  {
    NamesClassified();
    assert R1 + ["file1.po"] == File1;
  }

  /** Each level's one subdirectory, pruned, is the pruned search of the next level. */
  lemma ChildrenOfLevel5(k: int)
    ensures PrunedChildren([Entry("level6", Level6)], R5, k) == []
  {
    assert R5 + ["level6"] == R6;
    assert Pruned(Level6, R6, k) == [];
  }

  lemma ChildrenOfLevel4(k: int)
    ensures PrunedChildren([Entry("level5", Level5)], R4, k) == Pruned(Level5, R5, k)
  {
    assert R4 + ["level5"] == R5;
  }

  lemma ChildrenOfLevel3(k: int)
    ensures PrunedChildren([Entry("level4", Level4)], R3, k) == Pruned(Level4, R4, k)
  {
    assert R3 + ["level4"] == R4;
  }

  lemma ChildrenOfLevel2(k: int)
    ensures PrunedChildren([Entry("level3", Level3)], R2, k) == Pruned(Level3, R3, k)
  {
    assert R2 + ["level3"] == R3;
  }

  lemma ChildrenOfLevel1(k: int)
    ensures PrunedChildren([Entry("level2", Level2)], R1, k) == Pruned(Level2, R2, k)
  {
    assert R1 + ["level2"] == R2;
  }

  lemma ChildrenOfChain(k: int)
    ensures PrunedChildren([Entry("level1", Level1)], [], k) == Pruned(Level1, R1, k)
  {
    assert [] + ["level1"] == R1;
  }

  /** The pruned search over the chain, one level at a time from the bottom. */
  lemma PrunedLevel5(k: int)
    ensures Pruned(Level5, R5, k) == (if k >= 5 then [File3] else [])
  {
    FilesAtLevel5();
    ChildrenOfLevel5(k);
  }

  lemma PrunedLevel4(k: int)
    ensures Pruned(Level4, R4, k) == (if k >= 5 then [File3] else [])
  {
    PrunedLevel5(k);
    FilesAtLevel4();
    ChildrenOfLevel4(k);
  }

  lemma PrunedLevel3(k: int)
    ensures Pruned(Level3, R3, k) == (if k >= 3 then [File2] else []) + (if k >= 5 then [File3] else [])
  {
    PrunedLevel4(k);
    FilesAtLevel3();
    ChildrenOfLevel3(k);
  }

  lemma PrunedLevel2(k: int)
    ensures Pruned(Level2, R2, k) == (if k >= 3 then [File2] else []) + (if k >= 5 then [File3] else [])
  {
    PrunedLevel3(k);
    assert PoFilesIn(R2, []) == [];
    ChildrenOfLevel2(k);
  }

  lemma PrunedLevel1(k: int)
    ensures Pruned(Level1, R1, k) ==
      (if k >= 1 then [File1] else []) + (if k >= 3 then [File2] else []) + (if k >= 5 then [File3] else [])
  {
    PrunedLevel2(k);
    FilesAtLevel1();
    ChildrenOfLevel1(k);
  }

  /** The pruned search over the whole chain. */
  lemma ChainPruned(k: int)
    ensures Pruned(Chain, [], k) ==
      (if k >= 1 then [File1] else []) + (if k >= 3 then [File2] else []) + (if k >= 5 then [File3] else [])
  {
    PrunedLevel1(k);
    ChildrenOfChain(k);
  }

  /** The search as written over the chain equals the pruned search, for any plain top path. */
  lemma ChainFound(tmp: string, k: int)
    requires PlainTop(tmp)
    ensures FindPoFiles(tmp, Chain, k) ==
      (if k >= 1 then [File1] else []) + (if k >= 3 then [File2] else []) + (if k >= 5 then [File3] else [])
  {
    ChainWellNamed();
    SkipEqualsPrune(tmp, Chain, k);
    ChainPruned(k);
  }

  /**
    The search as written finds all three files at limit 5, the depth-1 and
    depth-3 files at limit 3, only the depth-1 file at limit 1, and nothing
    at limit 0.
  */
  lemma ChainScenario(tmp: string)
    requires PlainTop(tmp)
    ensures FindPoFiles(tmp, Chain, 5) == [File1, File2, File3]
    ensures FindPoFiles(tmp, Chain, 3) == [File1, File2]
    ensures FindPoFiles(tmp, Chain, 1) == [File1]
    ensures FindPoFiles(tmp, Chain, 0) == []
  {
    ChainAtFive(tmp);
    ChainAtThree(tmp);
    ChainAtOne(tmp);
    ChainAtZero(tmp);
  }

  lemma ChainAtFive(tmp: string)
    requires PlainTop(tmp)
    ensures FindPoFiles(tmp, Chain, 5) == [File1, File2, File3]
  {
    ChainFound(tmp, 5);
    assert [File1] + [File2] + [File3] == [File1, File2, File3];
  }

  lemma ChainAtThree(tmp: string)
    requires PlainTop(tmp)
    ensures FindPoFiles(tmp, Chain, 3) == [File1, File2]
  {
    ChainFound(tmp, 3);
    assert [File1] + [File2] + [] == [File1, File2];
  }

  lemma ChainAtOne(tmp: string)
    requires PlainTop(tmp)
    ensures FindPoFiles(tmp, Chain, 1) == [File1]
  {
    ChainFound(tmp, 1);
    assert [File1] + [] + [] == [File1];
  }

  lemma ChainAtZero(tmp: string)
    requires PlainTop(tmp)
    ensures FindPoFiles(tmp, Chain, 0) == []
  {
    ChainFound(tmp, 0);
  }

  /**
    A trailing separator on the top path: the base depth is taken after
    stripping it, but the walk reports the top as given, so the top itself
    counts as depth 1 and at limit 0 its own `.po` file is missed. The
    corrected search reports it.
  */
  lemma TrailingSeparatorMissesTopFiles()
    ensures FindPoFiles("po/", Dir(["a.po"], []), 0) == []
    ensures FindPoFilesByLevel("po/", Dir(["a.po"], []), 0) == [["a.po"]]
  {
    var d := Dir(["a.po"], []);
    var steps := Walk("po/", d, []);
    assert steps == [WalkStep("po/", [], ["a.po"])];
    assert steps[1..] == [];
    assert StripTrailing("po/", Sep) == "po";
    assert Count("po", Sep) == 0;
    assert Count("po/", Sep) == 1;
    assert IsPoName("a.po");
    assert PoFilesIn([], ["a.po"]) == [["a.po"]];
  }
}

=== FILE: scanner_proofs.dfy ===
/**
  What the search promises: skipping over-deep directories without pruning
  reports exactly what pruning reports; the reported files are exactly the
  `.po` files whose directory lies within the depth limit; and the result
  grows with the limit.
*/
module ScannerProofs {
  import opened Text
  import opened Scanner
  import opened Seqs

  /** `p` names a `.po` file directly inside the directory at `rel`, which is within the limit. */
  ghost predicate ReportedHere(d: Dir, rel: Path, k: int, p: Path) {
    |p| == |rel| + 1 && p[..|rel|] == rel && p[|rel|] in d.files && IsPoName(p[|rel|]) && |rel| <= k
  }

  /** One level of `Reported`: a file directly here, or a file reported below some subdirectory. */
  lemma ReportedStep(d: Dir, rel: Path, k: int, p: Path)
    ensures Reported(d, rel, k, p) <==>
      ReportedHere(d, rel, k, p)
      || exists i | 0 <= i < |d.subdirs| :: Reported(d.subdirs[i].dir, rel + [d.subdirs[i].name], k, p)
  {
    if |p| > |rel| && p[..|rel|] == rel {
      var q := p[|rel|..];
      assert q[0] == p[|rel|];
      forall i | 0 <= i < |d.subdirs|
        ensures Reported(d.subdirs[i].dir, rel + [d.subdirs[i].name], k, p) <==>
          |q| > 1 && d.subdirs[i].name == q[0] && FileIn(d.subdirs[i].dir, q[1..]) && IsPoName(p[|p| - 1]) && |p| - 1 <= k
      {
        var r := rel + [d.subdirs[i].name];
        if |p| > |r| {
          assert p[..|r|] == r <==> d.subdirs[i].name == q[0] by {
            assert p[..|r|] == p[..|rel|] + [p[|rel|]];
          }
          assert p[|r|..] == q[1..];
        }
      }
    } else {
      forall i | 0 <= i < |d.subdirs|
        ensures !Reported(d.subdirs[i].dir, rel + [d.subdirs[i].name], k, p)
      {
        var r := rel + [d.subdirs[i].name];
        if |p| > |r| {
          assert p[..|rel|] == p[..|r|][..|rel|];
        }
      }
    }
  }

  /** A path is pruned in below some subdirectory exactly when some subdirectory's pruned search reports it. */
  lemma {:induction false} PrunedChildrenIn(subs: seq<Entry>, rel: Path, k: int, p: Path)
    ensures p in PrunedChildren(subs, rel, k) <==>
      exists i | 0 <= i < |subs| :: p in Pruned(subs[i].dir, rel + [subs[i].name], k)
    decreases |subs|
  {
    if |subs| > 0 {
      PrunedChildrenIn(subs[1..], rel, k, p);
      assert forall i | 1 <= i < |subs| :: subs[i] == subs[1..][i - 1];
    }
  }

  lemma {:induction false} PrunedSpec(d: Dir, rel: Path, k: int, p: Path)
    ensures p in Pruned(d, rel, k) <==> Reported(d, rel, k, p)
    decreases d
  {
    if |rel| <= k {
      forall i | 0 <= i < |d.subdirs|
        ensures p in Pruned(d.subdirs[i].dir, rel + [d.subdirs[i].name], k)
            <==> Reported(d.subdirs[i].dir, rel + [d.subdirs[i].name], k, p)
      {
        PrunedSpec(d.subdirs[i].dir, rel + [d.subdirs[i].name], k, p);
      }
      PrunedChildrenIn(d.subdirs, rel, k, p);
      ReportedStep(d, rel, k, p);
    }
  }

  lemma {:induction false} CollectByLevelAppend(a: seq<WalkStep>, b: seq<WalkStep>, k: int)
    ensures CollectByLevel(a + b, k) == CollectByLevel(a, k) + CollectByLevel(b, k)
    decreases |a|
  {
    if |a| > 0 {
      assert (a + b)[0] == a[0];
      assert (a + b)[1..] == a[1..] + b;
      CollectByLevelAppend(a[1..], b, k);
    } else {
      assert a + b == b;
    }
  }

  lemma {:induction false} CollectAppend(a: seq<WalkStep>, b: seq<WalkStep>, base: int, k: int)
    ensures Collect(a + b, base, k) == Collect(a, base, k) + Collect(b, base, k)
    decreases |a|
  {
    if |a| > 0 {
      assert (a + b)[0] == a[0];
      assert (a + b)[1..] == a[1..] + b;
      CollectAppend(a[1..], b, base, k);
    } else {
      assert a + b == b;
    }
  }

  /** Below a directory that is already at the limit, pruning reports nothing. */
  lemma {:induction false} PrunedChildrenTooDeep(subs: seq<Entry>, rel: Path, k: int)
    requires |rel| >= k
    ensures PrunedChildren(subs, rel, k) == []
    decreases |subs|
  {
    if |subs| > 0 {
      PrunedChildrenTooDeep(subs[1..], rel, k);
    }
  }

  /** Collecting over the whole walk with component depth equals pruning. */
  lemma {:induction false} WalkByLevel(top: string, d: Dir, rel: Path, k: int)
    ensures CollectByLevel(Walk(top, d, rel), k) == Pruned(d, rel, k)
    decreases d, 1
  {
    var head := [WalkStep(top, rel, d.files)];
    CollectByLevelAppend(head, WalkChildren(top, d.subdirs, rel), k);
    WalkChildrenByLevel(top, d.subdirs, rel, k);
    if |rel| > k {
      PrunedChildrenTooDeep(d.subdirs, rel, k);
    }
  }

  lemma {:induction false} WalkChildrenByLevel(top: string, subs: seq<Entry>, rel: Path, k: int)
    ensures CollectByLevel(WalkChildren(top, subs, rel), k) == PrunedChildren(subs, rel, k)
    decreases subs, 0
  {
    if |subs| > 0 {
      var e := subs[0];
      var first := Walk(JoinPath(top, e.name), e.dir, rel + [e.name]);
      CollectByLevelAppend(first, WalkChildren(top, subs[1..], rel), k);
      WalkByLevel(JoinPath(top, e.name), e.dir, rel + [e.name], k);
      WalkChildrenByLevel(top, subs[1..], rel, k);
    }
  }

  /** Joining a valid name onto a plain path adds exactly one separator and stays plain. */
  lemma JoinAddsOneSeparator(top: string, name: Name)
    requires PlainTop(top) && ValidName(name)
    ensures JoinPath(top, name) == top + [Sep] + name
    ensures Count(JoinPath(top, name), Sep) == Count(top, Sep) + 1
    ensures PlainTop(JoinPath(top, name))
  {
    CountAppend(top + [Sep], name, Sep);
    CountAppend(top, [Sep], Sep);
    CountAbsent(name, Sep);
    assert name[|name| - 1] in name;
  }

  /** Every directory the walk reports has separator depth equal to its component depth. */
  lemma {:induction false} WalkDepths(top: string, d: Dir, rel: Path, base: int)
    requires PlainTop(top) && WellNamed(d) && Count(top, Sep) - base == |rel|
    ensures forall s | s in Walk(top, d, rel) :: Count(s.root, Sep) - base == |s.rel|
    decreases d, 1
  {
    WalkChildrenDepths(top, d.subdirs, rel, base);
  }

  lemma {:induction false} WalkChildrenDepths(top: string, subs: seq<Entry>, rel: Path, base: int)
    requires PlainTop(top) && Count(top, Sep) - base == |rel|
    requires forall i | 0 <= i < |subs| :: ValidName(subs[i].name) && WellNamed(subs[i].dir)
    ensures forall s | s in WalkChildren(top, subs, rel) :: Count(s.root, Sep) - base == |s.rel|
    decreases subs, 0
  {
    if |subs| > 0 {
      var e := subs[0];
      JoinAddsOneSeparator(top, e.name);
      WalkDepths(JoinPath(top, e.name), e.dir, rel + [e.name], base);
      WalkChildrenDepths(top, subs[1..], rel, base);
    }
  }

  /** When every separator depth exceeds the component depth by `c`, collecting at `k` is collecting by level at `k - c`. */
  lemma {:induction false} CollectShifted(steps: seq<WalkStep>, base: int, c: int, k: int)
    requires forall s | s in steps :: Count(s.root, Sep) - base == |s.rel| + c
    ensures Collect(steps, base, k) == CollectByLevel(steps, k - c)
    decreases |steps|
  {
    if |steps| > 0 {
      assert steps[0] in steps;
      CollectShifted(steps[1..], base, c, k);
    }
  }

  /**
    For a top path without a trailing separator, skipping over-deep
    directories while still descending (as written) reports exactly what
    pruning them would.
  */
  lemma SkipEqualsPrune(directory: string, tree: Dir, k: int)
    requires PlainTop(directory) && WellNamed(tree)
    ensures FindPoFiles(directory, tree, k) == Pruned(tree, [], k)
  {
    var base := Count(StripTrailing(directory, Sep), Sep);
    assert StripTrailing(directory, Sep) == directory;
    WalkDepths(directory, tree, [], base);
    CollectShifted(Walk(directory, tree, []), base, 0, k);
    WalkByLevel(directory, tree, [], k);
  }

  /** The corrected search reports exactly what pruning reports, for any spelling of the top path. */
  lemma ByLevelEqualsPrune(directory: string, tree: Dir, k: int)
    ensures FindPoFilesByLevel(directory, tree, k) == Pruned(tree, [], k)
  {
    WalkByLevel(directory, tree, [], k);
  }

  /** For a top without a trailing separator, the search as written and the corrected search give the same list. */
  lemma PlainTopSearchesAgree(directory: string, tree: Dir, k: int)
    requires PlainTop(directory) && WellNamed(tree)
    ensures FindPoFiles(directory, tree, k) == FindPoFilesByLevel(directory, tree, k)
  {
    SkipEqualsPrune(directory, tree, k);
    ByLevelEqualsPrune(directory, tree, k);
  }

  /**
    A path is reported iff it names a file of the tree whose name ends in
    `.po` and whose containing directory lies at most `k` levels below the top.
  */
  lemma FoundIff(directory: string, tree: Dir, k: int, p: Path)
    ensures p in FindPoFilesByLevel(directory, tree, k) <==>
      FileIn(tree, p) && IsPoName(p[|p| - 1]) && |p| - 1 <= k
  {
    ByLevelEqualsPrune(directory, tree, k);
    PrunedSpec(tree, [], k, p);
    assert p[0..] == p;
  }

  /** The same characterisation for the search as written, when the top has no trailing separator. */
  lemma PlainTopFoundIff(directory: string, tree: Dir, k: int, p: Path)
    requires PlainTop(directory) && WellNamed(tree)
    ensures p in FindPoFiles(directory, tree, k) <==>
      FileIn(tree, p) && IsPoName(p[|p| - 1]) && |p| - 1 <= k
  {
    SkipEqualsPrune(directory, tree, k);
    ByLevelEqualsPrune(directory, tree, k);
    FoundIff(directory, tree, k, p);
  }

  /** Raising the limit never loses a file; at limit 0 only files directly in the top are reported. */
  lemma DepthMonotone(directory: string, tree: Dir, k: int, p: Path)
    ensures p in FindPoFilesByLevel(directory, tree, k) ==> p in FindPoFilesByLevel(directory, tree, k + 1)
    ensures p in FindPoFilesByLevel(directory, tree, 0) <==>
      |p| == 1 && p[0] in tree.files && IsPoName(p[0])
  {
    FoundIff(directory, tree, k, p);
    FoundIff(directory, tree, k + 1, p);
    FoundIff(directory, tree, 0, p);
  }

  /** An empty directory yields no paths, at any limit and for any spelling of the top. */
  lemma EmptyTreeFindsNothing(directory: string, k: int)
    ensures FindPoFiles(directory, Dir([], []), k) == []
    ensures FindPoFilesByLevel(directory, Dir([], []), k) == []
  {
    var steps := Walk(directory, Dir([], []), []);
    assert steps == [WalkStep(directory, [], [])];
    assert steps[1..] == [];
    assert PoFilesIn([], []) == [];
    assert CollectByLevel(steps, k) == [];
    if |directory| > 0 {
      assert Collect(steps, Count(StripTrailing(directory, Sep), Sep), k) == [];
    }
  }

  /** Distinct file names give distinct `.po` paths. */
  lemma {:induction false} PoFilesInDistinct(rel: Path, files: seq<Name>)
    requires Distinct(files)
    ensures Distinct(PoFilesIn(rel, files))
  {
    if |files| > 0 {
      DistinctTail(files);
      PoFilesInDistinct(rel, files[1..]);
      var rest := PoFilesIn(rel, files[1..]);
      if IsPoName(files[0]) {
        var here := rel + [files[0]];
        assert here[|rel|] == files[0];
        assert here !in rest;
        DistinctAppend([here], rest);
      }
    }
  }

  /** Every path the pruning search reports lies strictly below `rel`. */
  lemma PrunedBelow(d: Dir, rel: Path, k: int, p: Path)
    requires p in Pruned(d, rel, k)
    ensures |p| > |rel| && p[..|rel|] == rel
  {
    PrunedSpec(d, rel, k, p);
  }

  /** In a tree without repeated names, the pruning search reports no path twice. */
  lemma {:induction false} PrunedDistinct(d: Dir, rel: Path, k: int)
    requires DistinctNames(d)
    ensures Distinct(Pruned(d, rel, k))
    decreases d, 1
  {
    if |rel| <= k {
      var files := PoFilesIn(rel, d.files);
      var children := PrunedChildren(d.subdirs, rel, k);
      PoFilesInDistinct(rel, d.files);
      PrunedChildrenDistinct(d.subdirs, rel, k);
      forall x | x in children ensures |x| > |rel| + 1 {
        PrunedChildrenIn(d.subdirs, rel, k, x);
        var i :| 0 <= i < |d.subdirs| && x in Pruned(d.subdirs[i].dir, rel + [d.subdirs[i].name], k);
        PrunedBelow(d.subdirs[i].dir, rel + [d.subdirs[i].name], k, x);
      }
      DistinctAppend(files, children);
    }
  }

  lemma {:induction false} PrunedChildrenDistinct(subs: seq<Entry>, rel: Path, k: int)
    requires forall i, j | 0 <= i < j < |subs| :: subs[i].name != subs[j].name
    requires forall i | 0 <= i < |subs| :: DistinctNames(subs[i].dir)
    ensures Distinct(PrunedChildren(subs, rel, k))
    decreases subs, 0
  {
    if |subs| > 0 {
      var top := rel + [subs[0].name];
      var first := Pruned(subs[0].dir, top, k);
      var rest := PrunedChildren(subs[1..], rel, k);
      PrunedDistinct(subs[0].dir, top, k);
      PrunedChildrenDistinct(subs[1..], rel, k);
      forall x | x in rest ensures |x| > |rel| && x[|rel|] != subs[0].name {
        PrunedChildrenIn(subs[1..], rel, k, x);
        var i :| 0 <= i < |subs[1..]| && x in Pruned(subs[1..][i].dir, rel + [subs[1..][i].name], k);
        var other := rel + [subs[1..][i].name];
        PrunedBelow(subs[1..][i].dir, other, k, x);
        assert x[|rel|] == other[|rel|] == subs[i + 1].name;
      }
      forall x | x in first ensures x !in rest {
        PrunedBelow(subs[0].dir, top, k, x);
        assert x[|rel|] == top[|rel|] == subs[0].name;
      }
      DistinctAppend(first, rest);
    }
  }

  /** The corrected search reports each file at most once. */
  lemma FoundDistinct(directory: string, tree: Dir, k: int)
    requires DistinctNames(tree)
    ensures Distinct(FindPoFilesByLevel(directory, tree, k))
  {
    ByLevelEqualsPrune(directory, tree, k);
    PrunedDistinct(tree, [], k);
  }

  /** The trailing separators are exactly the separators stripping removes. */
  lemma {:induction false} TrailingSepsCount(directory: string)
    ensures Count(directory, Sep) == Count(StripTrailing(directory, Sep), Sep) + TrailingSeps(directory)
    ensures TrailingSeps(directory) == 0 <==> |directory| == 0 || PlainTop(directory)
    decreases |directory|
  {
    if |directory| > 0 && directory[|directory| - 1] == Sep {
      TrailingSepsCount(directory[..|directory| - 1]);
    }
  }

  /** Joining a valid name onto a path that ends in a separator adds no separator, and the result is plain. */
  lemma JoinAfterSeparator(top: string, name: Name)
    requires |top| > 0 && top[|top| - 1] == Sep && ValidName(name)
    ensures JoinPath(top, name) == top + name
    ensures Count(JoinPath(top, name), Sep) == Count(top, Sep)
    ensures PlainTop(JoinPath(top, name))
  {
    assert name[0] in name;
    assert name[|name| - 1] in name;
    CountAppend(top, name, Sep);
    CountAbsent(name, Sep);
  }

  /** Below a top that ends in a separator, every directory is one separator shallower than for a plain top. */
  lemma {:induction false} WalkChildrenAfterSep(top: string, subs: seq<Entry>, rel: Path, base: int)
    requires |top| > 0 && top[|top| - 1] == Sep && Count(top, Sep) - base == |rel| + 1
    requires forall i | 0 <= i < |subs| :: ValidName(subs[i].name) && WellNamed(subs[i].dir)
    ensures forall s | s in WalkChildren(top, subs, rel) :: Count(s.root, Sep) - base == |s.rel|
    decreases |subs|
  {
    if |subs| > 0 {
      var e := subs[0];
      JoinAfterSeparator(top, e.name);
      WalkDepths(JoinPath(top, e.name), e.dir, rel + [e.name], base);
      WalkChildrenAfterSep(top, subs[1..], rel, base);
    }
  }

  /**
    What the search as written returns for a top ending in `t` separators:
    the top's own files when `t` is within the limit, then what pruning
    reports below the top at a limit lowered by `t - 1`.
  */
  function AfterSepResult(tree: Dir, t: int, k: int): seq<Path> {
    (if t > k then [] else PoFilesIn([], tree.files)) + PrunedChildren(tree.subdirs, [], k - (t - 1))
  }

  lemma AfterSepShape(directory: string, tree: Dir, k: int)
    requires |directory| > 0 && directory[|directory| - 1] == Sep && WellNamed(tree)
    ensures FindPoFiles(directory, tree, k) == AfterSepResult(tree, TrailingSeps(directory), k)
  {
    var base := Count(StripTrailing(directory, Sep), Sep);
    var head := [WalkStep(directory, [], tree.files)];
    var children := WalkChildren(directory, tree.subdirs, []);
    assert FindPoFiles(directory, tree, k) == Collect(head + children, base, k);
    CollectAppend(head, children, base, k);
    AfterSepTop(directory, tree, k);
    AfterSepBelow(directory, tree, k);
  }

  lemma AfterSepTop(directory: string, tree: Dir, k: int)
    requires |directory| > 0 && directory[|directory| - 1] == Sep
    ensures Collect([WalkStep(directory, [], tree.files)], Count(StripTrailing(directory, Sep), Sep), k)
      == if TrailingSeps(directory) > k then [] else PoFilesIn([], tree.files)
  {
    TrailingSepsCount(directory);
    CollectOne(WalkStep(directory, [], tree.files), Count(StripTrailing(directory, Sep), Sep), k);
  }

  lemma AfterSepBelow(directory: string, tree: Dir, k: int)
    requires |directory| > 0 && directory[|directory| - 1] == Sep && WellNamed(tree)
    ensures Collect(WalkChildren(directory, tree.subdirs, []), Count(StripTrailing(directory, Sep), Sep), k)
      == PrunedChildren(tree.subdirs, [], k - (TrailingSeps(directory) - 1))
  {
    var t := TrailingSeps(directory);
    var base := Count(StripTrailing(directory, Sep), Sep);
    var children := WalkChildren(directory, tree.subdirs, []);
    ChildrenShifted(directory, tree);
    CollectShifted(children, base, t - 1, k);
    WalkChildrenByLevel(directory, tree.subdirs, [], k - (t - 1));
  }

  /** Below a top ending in `t` separators, every directory's depth as written is its level plus `t - 1`. */
  lemma ChildrenShifted(directory: string, tree: Dir)
    requires |directory| > 0 && directory[|directory| - 1] == Sep && WellNamed(tree)
    ensures forall s | s in WalkChildren(directory, tree.subdirs, []) ::
      Count(s.root, Sep) - Count(StripTrailing(directory, Sep), Sep) == |s.rel| + (TrailingSeps(directory) - 1)
  {
    TrailingSepsCount(directory);
    WalkChildrenAfterSep(directory, tree.subdirs, [], Count(StripTrailing(directory, Sep), Sep) + (TrailingSeps(directory) - 1));
  }

  lemma CollectOne(step: WalkStep, base: int, k: int)
    ensures Collect([step], base, k)
      == if Count(step.root, Sep) - base > k then [] else PoFilesIn(step.rel, step.files)
  {
    assert [step][1..] == [];
  }

  /** What pruning reports below the top: the `.po` files at least one level down and within the limit. */
  lemma PrunedChildrenOfTop(tree: Dir, k: int, p: Path)
    ensures p in PrunedChildren(tree.subdirs, [], k) <==>
      |p| >= 2 && FileIn(tree, p) && IsPoName(p[|p| - 1]) && |p| - 1 <= k
  {
    PrunedChildrenSpec(tree, [], k, p);
    assert p[0..] == p;
  }

  /** Pruning below the subdirectories of `d` reports what the search must report below `rel`, except `d`'s own files. */
  lemma PrunedChildrenSpec(d: Dir, rel: Path, k: int, p: Path)
    ensures p in PrunedChildren(d.subdirs, rel, k) <==> Reported(d, rel, k, p) && |p| > |rel| + 1
  {
    forall i | 0 <= i < |d.subdirs|
      ensures p in Pruned(d.subdirs[i].dir, rel + [d.subdirs[i].name], k)
          <==> Reported(d.subdirs[i].dir, rel + [d.subdirs[i].name], k, p)
    {
      PrunedSpec(d.subdirs[i].dir, rel + [d.subdirs[i].name], k, p);
    }
    PrunedChildrenIn(d.subdirs, rel, k, p);
    ReportedStep(d, rel, k, p);
  }

  /**
    A path is reported by the search as written iff the top path is not
    empty and the path names a `.po` file of the tree whose directory the
    search places within the limit: the top at its number of trailing
    separators, a directory `n >= 1` levels down at `n` plus that number
    less one (plus nothing when there is none).
  */
  lemma AsWrittenFoundIff(directory: string, tree: Dir, k: int, p: Path)
    requires WellNamed(tree)
    ensures p in FindPoFiles(directory, tree, k) <==>
      && |directory| > 0
      && FileIn(tree, p) && IsPoName(p[|p| - 1])
      && AsWrittenLevel(TrailingSeps(directory), |p| - 1) <= k
  {
    if |directory| > 0 {
      TrailingSepsCount(directory);
      if PlainTop(directory) {
        PlainTopFoundIff(directory, tree, k, p);
      } else {
        AfterSepFoundIff(directory, tree, k, p);
      }
    }
  }

  lemma AfterSepFoundIff(directory: string, tree: Dir, k: int, p: Path)
    requires |directory| > 0 && directory[|directory| - 1] == Sep && WellNamed(tree)
    ensures p in FindPoFiles(directory, tree, k) <==>
      FileIn(tree, p) && IsPoName(p[|p| - 1]) && AsWrittenLevel(TrailingSeps(directory), |p| - 1) <= k
  {
    var t := TrailingSeps(directory);
    var here := if t > k then [] else PoFilesIn([], tree.files);
    var below := PrunedChildren(tree.subdirs, [], k - (t - 1));
    AfterSepShape(directory, tree, k);
    assert p in FindPoFiles(directory, tree, k) <==> p in here || p in below;
    PrunedChildrenOfTop(tree, k - (t - 1), p);
    TopFiles(tree, p);
  }

  /** The `.po` files directly in the top are the one-component `.po` paths of the tree. */
  lemma TopFiles(tree: Dir, p: Path)
    ensures p in PoFilesIn([], tree.files) <==> |p| == 1 && FileIn(tree, p) && IsPoName(p[|p| - 1])
  {
    if |p| == 1 {
      assert p[..0] == [];
    }
  }

  /** Raising the limit never loses a file from a collection. */
  lemma {:induction false} CollectMonotone(steps: seq<WalkStep>, base: int, k: int, p: Path)
    requires p in Collect(steps, base, k)
    ensures p in Collect(steps, base, k + 1)
    decreases |steps|
  {
    var here := if Count(steps[0].root, Sep) - base > k then [] else PoFilesIn(steps[0].rel, steps[0].files);
    if p !in here {
      CollectMonotone(steps[1..], base, k, p);
    }
  }

  /**
    Raising the limit never loses a file, for any spelling of the top; at
    limit 0 the search as written finds the top's own `.po` files when the
    top has no trailing separator and nothing at all when it has one.
  */
  lemma AsWrittenDepthMonotone(directory: string, tree: Dir, k: int, p: Path)
    ensures p in FindPoFiles(directory, tree, k) ==> p in FindPoFiles(directory, tree, k + 1)
    ensures WellNamed(tree) ==>
      (p in FindPoFiles(directory, tree, 0) <==>
        PlainTop(directory) && |p| == 1 && p[0] in tree.files && IsPoName(p[0]))
  {
    if |directory| > 0 && p in FindPoFiles(directory, tree, k) {
      CollectMonotone(Walk(directory, tree, []), Count(StripTrailing(directory, Sep), Sep), k, p);
    }
    if WellNamed(tree) {
      AsWrittenFoundIff(directory, tree, 0, p);
      TrailingSepsCount(directory);
    }
  }

  /** In a tree without repeated names, the search as written reports no path twice, for any spelling of the top. */
  lemma AsWrittenFoundDistinct(directory: string, tree: Dir, k: int)
    requires WellNamed(tree) && DistinctNames(tree)
    ensures Distinct(FindPoFiles(directory, tree, k))
  {
    if |directory| > 0 {
      TrailingSepsCount(directory);
      if PlainTop(directory) {
        SkipEqualsPrune(directory, tree, k);
        PrunedDistinct(tree, [], k);
      } else {
        AfterSepDistinct(directory, tree, k);
      }
    }
  }

  lemma AfterSepDistinct(directory: string, tree: Dir, k: int)
    requires |directory| > 0 && directory[|directory| - 1] == Sep
    requires WellNamed(tree) && DistinctNames(tree)
    ensures Distinct(FindPoFiles(directory, tree, k))
  {
    AfterSepShape(directory, tree, k);
    TopThenBelowDistinct(tree, TrailingSeps(directory), k);
    DistinctSame(FindPoFiles(directory, tree, k), AfterSepResult(tree, TrailingSeps(directory), k));
  }

  /** The top's own `.po` files when `t` is within the limit, then what pruning reports below the top: no path twice. */
  lemma TopThenBelowDistinct(tree: Dir, t: int, k: int)
    requires DistinctNames(tree)
    ensures Distinct(AfterSepResult(tree, t, k))
  {
    var below := PrunedChildren(tree.subdirs, [], k - (t - 1));
    PrunedChildrenDistinct(tree.subdirs, [], k - (t - 1));
    if t > k {
      assert AfterSepResult(tree, t, k) == below;
    } else {
      var here := PoFilesIn([], tree.files);
      PoFilesInDistinct([], tree.files);
      forall x | x in here ensures x !in below {
        TopNotBelow(tree, k - (t - 1), x);
      }
      DistinctAppend(here, below);
      DistinctSame(AfterSepResult(tree, t, k), here + below);
    }
  }

  /** A file directly in the top is never reported again from below it. */
  lemma TopNotBelow(tree: Dir, k: int, x: Path)
    ensures x in PoFilesIn([], tree.files) ==> x !in PrunedChildren(tree.subdirs, [], k)
  {
    TopFiles(tree, x);
    PrunedChildrenOfTop(tree, k, x);
  }
}

=== FILE: seqs.dfy ===
/** Facts about sequences without repeated elements. */
module Seqs {

  predicate Distinct<T(==)>(s: seq<T>) {
    forall i, k | 0 <= i < k < |s| :: s[i] != s[k]
  }

  lemma DistinctAppend<T>(a: seq<T>, b: seq<T>)
    requires Distinct(a) && Distinct(b)
    requires forall x | x in a :: x !in b
    ensures Distinct(a + b)
  {
    forall i, k | 0 <= i < k < |a + b|
      ensures (a + b)[i] != (a + b)[k]
    {
      if i < |a| && k >= |a| {
        assert (a + b)[i] in a;
        assert (a + b)[k] == b[k - |a|];
      }
    }
  }

  /**
    A proof step, not a property of the model: it moves `Distinct` between
    two sequences already known to be equal, so that callers need not have
    the solver unfold `Distinct` on a long expression.
  */
  lemma DistinctSame<T>(a: seq<T>, b: seq<T>)
    requires a == b
    ensures Distinct(a) == Distinct(b)
  {
  }

  lemma DistinctTail<T>(s: seq<T>)
    requires Distinct(s) && |s| > 0
    ensures Distinct(s[1..]) && s[0] !in s[1..]
  {
  }
}

=== FILE: text.dfy ===
/**
  Character-level string helpers shared by the validator, the scanner and the
  URL join: substring search (Python's `in` on `str`), suffix test
  (`str.endswith`), separator counting (`str.count`) and splitting/joining on
  one character (`str.split` / `str.join`).
*/
module Text {

  /** `sub` occurs in `s` starting at index `i`. */
  ghost predicate OccursAt(s: string, sub: string, i: int) {
    0 <= i && i + |sub| <= |s| && s[i..i + |sub|] == sub
  }

  /** Reference definition of substring containment. */
  ghost predicate HasSubstring(s: string, sub: string) {
    exists i :: OccursAt(s, sub, i)
  }

  lemma OccursShift(s: string, sub: string, i: nat)
    requires |s| > 0
    ensures OccursAt(s[1..], sub, i) <==> OccursAt(s, sub, i + 1)
  {
    if i + |sub| <= |s| - 1 {
      assert s[1..][i..i + |sub|] == s[i + 1..i + 1 + |sub|];
    }
  }

  /** Python's `sub in s`: a left-to-right search for `sub` as a prefix of each suffix of `s`. */
  function Contains(s: string, sub: string): (b: bool)
    ensures b <==> HasSubstring(s, sub)
    decreases |s|
  {
    if sub <= s then
      assert OccursAt(s, sub, 0);
      true
    else if |s| == 0 then
      false
    else
      var rest := Contains(s[1..], sub);
      assert rest <==> HasSubstring(s, sub) by {
        if rest {
          var i: nat :| OccursAt(s[1..], sub, i);
          OccursShift(s, sub, i);
        }
        if HasSubstring(s, sub) {
          var i :| OccursAt(s, sub, i);
          assert i != 0;
          OccursShift(s, sub, i - 1);
        }
      }
      rest
  }

  /** A string that starts some piece occurs in any text ending with that piece. */
  lemma PieceOccurs(a: string, b: string, sub: string)
    requires sub <= b
    ensures HasSubstring(a + b, sub)
  {
    assert (a + b)[|a|..|a| + |sub|] == sub;
    assert OccursAt(a + b, sub, |a|);
  }

  /** Appending text keeps every occurrence. */
  lemma ExtendRight(s: string, t: string, sub: string)
    requires HasSubstring(s, sub)
    ensures HasSubstring(s + t, sub)
  {
    var i :| OccursAt(s, sub, i);
    assert (s + t)[i..i + |sub|] == s[i..i + |sub|];
    assert OccursAt(s + t, sub, i);
  }

  /** If some character of `sub` never appears in `s`, then `sub` does not occur in `s`. */
  lemma AbsentChar(s: string, sub: string, c: char)
    requires c in sub && c !in s
    ensures !HasSubstring(s, sub)
  {
    var k :| 0 <= k < |sub| && sub[k] == c;
    forall i ensures !OccursAt(s, sub, i) {
      if 0 <= i && i + |sub| <= |s| {
        assert s[i..i + |sub|][k] == s[i + k];
      }
    }
  }

  /**
    An occurrence of `sub` in `a + [c] + b` lies wholly inside `a`, wholly
    inside `b`, or straddles the `c`, in which case `c` is a character of `sub`.
  */
  lemma SplitAtChar(a: string, c: char, b: string, sub: string)
    ensures HasSubstring(a + [c] + b, sub) ==> HasSubstring(a, sub) || HasSubstring(b, sub) || c in sub
  {
    var s := a + [c] + b;
    if HasSubstring(s, sub) {
      var i :| OccursAt(s, sub, i);
      if i + |sub| <= |a| {
        assert s[i..i + |sub|] == a[i..i + |sub|];
        assert OccursAt(a, sub, i);
      } else if i > |a| {
        assert s[i..i + |sub|] == b[i - |a| - 1..i - |a| - 1 + |sub|];
        assert OccursAt(b, sub, i - |a| - 1);
      } else {
        assert s[i..i + |sub|][|a| - i] == c;
      }
    }
  }

  /** Python's `s.endswith(suffix)`. */
  predicate EndsWith(s: string, suffix: string) {
    |suffix| <= |s| && s[|s| - |suffix|..] == suffix
  }

  /** Python's `s.count(c)` for a one-character `c`. */
  function Count(s: string, c: char): nat {
    if |s| == 0 then 0
    else (if s[|s| - 1] == c then 1 else 0) + Count(s[..|s| - 1], c)
  }

  lemma {:induction false} CountAppend(a: string, b: string, c: char)
    ensures Count(a + b, c) == Count(a, c) + Count(b, c)
    decreases |b|
  {
    if |b| == 0 {
      assert a + b == a;
    } else {
      assert (a + b)[..|a + b| - 1] == a + b[..|b| - 1];
      CountAppend(a, b[..|b| - 1], c);
    }
  }

  lemma {:induction false} CountAbsent(s: string, c: char)
    requires c !in s
    ensures Count(s, c) == 0
    decreases |s|
  {
    if |s| > 0 {
      CountAbsent(s[..|s| - 1], c);
    }
  }

  /** Python's `s.rstrip(c)` for a one-character `c`. */
  function StripTrailing(s: string, c: char): (r: string)
    ensures r <= s
    ensures |r| == 0 || r[|r| - 1] != c
    ensures forall k | |r| <= k < |s| :: s[k] == c
  {
    if |s| > 0 && s[|s| - 1] == c then StripTrailing(s[..|s| - 1], c) else s
  }

  /** ASCII lower-casing of one character (`str.lower` on the characters that matter here). */
  function LowerChar(c: char): char {
    if 'A' <= c <= 'Z' then (c as int + 32) as char else c
  }

  function Lower(s: string): (r: string)
    ensures |r| == |s| && forall i | 0 <= i < |s| :: r[i] == LowerChar(s[i])
  {
    seq(|s|, i requires 0 <= i < |s| => LowerChar(s[i]))
  }

  /** The index of the first character of `s` in `cs`, or `|s|` when there is none (`str.find`). */
  function FirstOf(s: string, cs: set<char>): (i: nat)
    ensures i <= |s|
    ensures i < |s| ==> s[i] in cs
    ensures forall k | 0 <= k < i :: s[k] !in cs
  {
    if |s| == 0 then 0
    else if s[0] in cs then 0
    else 1 + FirstOf(s[1..], cs)
  }

  /** Python's `s.split(c)`: the maximal pieces between occurrences of `c`, in order. */
  function Split(s: string, c: char): (parts: seq<string>)
    ensures |parts| > 0
    ensures forall k | 0 <= k < |parts| :: c !in parts[k]
  {
    if |s| == 0 then [""]
    else
      var rest := Split(s[1..], c);
      if s[0] == c then [""] + rest
      else [[s[0]] + rest[0]] + rest[1..]
  }

  /** Python's `c.join(parts)`. */
  function Join(parts: seq<string>, c: char): string {
    if |parts| == 0 then ""
    else if |parts| == 1 then parts[0]
    else parts[0] + [c] + Join(parts[1..], c)
  }

  /** Joining the pieces of a split gives back the string. */
  lemma {:induction false} JoinSplit(s: string, c: char)
    ensures Join(Split(s, c), c) == s
  {
    if |s| > 0 {
      var rest := Split(s[1..], c);
      JoinSplit(s[1..], c);
      if s[0] != c && |rest| > 1 {
        assert Join(rest, c) == rest[0] + [c] + Join(rest[1..], c);
      }
    }
  }

  /** Splitting text that starts with a separator-free piece and a separator. */
  lemma {:induction false} SplitPiece(w: string, c: char, s: string)
    requires c !in w
    ensures Split(w + [c] + s, c) == [w] + Split(s, c)
  {
    if |w| > 0 {
      assert (w + [c] + s)[1..] == w[1..] + [c] + s;
      SplitPiece(w[1..], c, s);
      assert [w[0]] + w[1..] == w;
    } else {
      assert (w + [c] + s)[1..] == s;
    }
  }

  /** A separator-free string is its own single piece. */
  lemma {:induction false} SplitWhole(w: string, c: char)
    requires c !in w
    ensures Split(w, c) == [w]
  {
    if |w| > 0 {
      SplitWhole(w[1..], c);
      assert [w[0]] + w[1..] == w;
    }
  }

  /** Splitting a join of separator-free pieces gives back the pieces. */
  lemma {:induction false} SplitJoin(parts: seq<string>, c: char)
    requires |parts| > 0 && forall k | 0 <= k < |parts| :: c !in parts[k]
    ensures Split(Join(parts, c), c) == parts
  {
    if |parts| == 1 {
      SplitWhole(parts[0], c);
    } else {
      SplitJoin(parts[1..], c);
      SplitPiece(parts[0], c, Join(parts[1..], c));
    }
  }

  /** Joining two non-empty lists of pieces puts one separator between their joins. */
  lemma {:induction false} JoinAppend(a: seq<string>, b: seq<string>, c: char)
    requires |a| > 0 && |b| > 0
    ensures Join(a + b, c) == Join(a, c) + [c] + Join(b, c)
    decreases |a|
  {
    assert (a + b)[1..] == a[1..] + b;
    if |a| > 1 {
      JoinAppend(a[1..], b, c);
    }
  }

  /** A character absent from a string is absent from every piece of its split. */
  lemma {:induction false} SplitAvoids(s: string, c: char, d: char)
    requires d !in s
    ensures forall k | 0 <= k < |Split(s, c)| :: d !in Split(s, c)[k]
  {
    if |s| > 0 {
      assert s[0] in s;
      SplitAvoids(s[1..], c, d);
    }
  }
}

=== FILE: token.dfy ===
/**
  The API token (`get_api_token`) and the authorisation header the upload
  request carries (`send_to_pofile_service`). The environment variable
  `POFILE_API_KEY` is a parameter: its value, or None when it is unset.
  Python's truth test on an optional string is "set and not empty".
*/
module Token {
  import opened Wrappers

  const AuthorizationField: string := "Authorization"
  const BearerPrefix: string := "Bearer "

  /** Python's `if value:` on an optional string. */
  predicate Truthy(value: Option<string>) {
    value.Some? && value.value != ""
  }

  /** The token given on the command line when it is non-empty, else whatever the environment holds. */
  function GetApiToken(explicit: Option<string>, env: Option<string>): (token: Option<string>)
    ensures Truthy(explicit) ==> token == explicit
    ensures !Truthy(explicit) ==> token == env
    ensures Truthy(token) <==> Truthy(explicit) || Truthy(env)
  {
    if Truthy(explicit) then explicit else env
  }

  /** The request headers: a bearer authorisation field exactly when the token is non-empty. */
  function Headers(token: Option<string>): (headers: map<string, string>)
    ensures AuthorizationField in headers <==> Truthy(token)
    ensures headers.Keys <= {AuthorizationField}
    ensures Truthy(token) ==> headers[AuthorizationField] == BearerPrefix + token.value
  {
    if Truthy(token) then map[AuthorizationField := BearerPrefix + token.value] else map[]
  }

  /** The token of the header: what follows the bearer prefix, when the header has that shape. */
  function BearerToken(field: string): (token: Option<string>)
    ensures token.Some? <==> |field| > |BearerPrefix| && field[..|BearerPrefix|] == BearerPrefix
    ensures token.Some? ==> field == BearerPrefix + token.value && token.value != ""
  {
    if |field| > |BearerPrefix| && field[..|BearerPrefix|] == BearerPrefix then Some(field[|BearerPrefix|..])
    else None
  }

  /**
    The upload request is authorised exactly when the command line or the
    environment supplies a non-empty token, and the header carries the token
    chosen by the command line first, recoverable from the header.
  */
  lemma HeaderCarriesToken(explicit: Option<string>, env: Option<string>)
    ensures var headers := Headers(GetApiToken(explicit, env));
      && (AuthorizationField in headers <==> Truthy(explicit) || Truthy(env))
      && (Truthy(explicit) ==> BearerToken(headers[AuthorizationField]) == explicit)
      && (!Truthy(explicit) && Truthy(env) ==> BearerToken(headers[AuthorizationField]) == env)
  {
    var token := GetApiToken(explicit, env);
    if Truthy(token) {
      var field := BearerPrefix + token.value;
      assert field[..|BearerPrefix|] == BearerPrefix;
      assert field[|BearerPrefix|..] == token.value;
    }
  }
}

=== FILE: urls.dfy ===
/**
  The service endpoints and the part of `urllib.parse.urljoin` (as in
  CPython 3.12.3) that builds them: an absolute-path reference such as
  `/api/upload/` joined onto the configured base URL.

  The join cleans both strings (leading control characters and spaces are
  stripped, tabs and line breaks removed), splits the base into scheme and
  network location, splits the reference into path, parameters, query and
  fragment, resolves the reference's dot segments and reassembles the result
  with the base's scheme and location. A base whose location has one square
  bracket without the other raises an error.
*/
module Urls {
  import opened Wrappers
  import opened Text

  const DefaultApiDomainUrl: string := "https://pofile.io"
  const UploadPath: string := "/api/upload/"
  const DownloadPrefix: string := "/api/download/"
  const InvalidIPv6: string := "Invalid IPv6 URL"

  /** Schemes for which a relative reference is resolved against the base. */
  const UsesRelative: seq<string> := [
    "", "ftp", "http", "gopher", "nntp", "imap", "wais", "file", "https", "shttp", "mms",
    "prospero", "rtsp", "rtsps", "rtspu", "sftp", "svn", "svn+ssh", "ws", "wss"]

  /** Schemes whose URLs carry a network location. */
  const UsesNetloc: seq<string> := [
    "", "ftp", "http", "gopher", "nntp", "telnet", "imap", "wais", "file", "mms", "https", "shttp",
    "snews", "prospero", "rtsp", "rtsps", "rtspu", "rsync", "svn", "svn+ssh", "sftp", "nfs", "git",
    "git+ssh", "ws", "wss", "itms-services"]

  /** Schemes whose last path segment may carry `;parameters`. */
  const UsesParams: seq<string> := [
    "", "ftp", "hdl", "prospero", "http", "imap", "https", "shttp", "rtsp", "rtsps", "rtspu",
    "sip", "sips", "mms", "sftp", "tel"]

  /** The characters removed from anywhere in a URL before parsing. */
  predicate Safe(s: string) {
    '\t' !in s && '\r' !in s && '\n' !in s
  }

  /** Drops leading control characters and spaces (code points up to U+0020). */
  function StripLeadingControl(s: string): string {
    if |s| > 0 && s[0] <= ' ' then StripLeadingControl(s[1..]) else s
  }

  /** Removes every tab, carriage return and line feed. */
  function RemoveUnsafe(s: string): string {
    if |s| == 0 then ""
    else (if Safe([s[0]]) then [s[0]] else "") + RemoveUnsafe(s[1..])
  }

  function Clean(url: string): string {
    RemoveUnsafe(StripLeadingControl(url))
  }

  predicate IsAsciiAlpha(c: char) {
    'a' <= c <= 'z' || 'A' <= c <= 'Z'
  }

  predicate IsSchemeChar(c: char) {
    IsAsciiAlpha(c) || '0' <= c <= '9' || c == '+' || c == '-' || c == '.'
  }

  /** A scheme name: an ASCII letter followed by letters, digits, `+`, `-` or `.`. */
  predicate ValidScheme(s: string) {
    |s| > 0 && IsAsciiAlpha(s[0]) && forall c | c in s :: IsSchemeChar(c)
  }

  datatype SchemeSplit = SchemeSplit(scheme: string, rest: string)

  /** Splits off `scheme:` when the text before the first colon is a scheme name; the scheme is lower-cased. */
  function SplitScheme(url: string): (r: SchemeSplit)
    ensures r.scheme == "" ==> r.rest == url
    ensures r.scheme != "" ==>
      var n := |r.scheme|;
      && n < |url| && ValidScheme(url[..n]) && url[n] == ':' && r.scheme == Lower(url[..n])
      && r.rest == url[n + 1..]
  {
    var i := FirstOf(url, {':'});
    if 0 < i < |url| && IsAsciiAlpha(url[0]) && forall k | 0 <= k < i :: IsSchemeChar(url[k]) then
      SchemeSplit(Lower(url[..i]), url[i + 1..])
    else
      SchemeSplit("", url)
  }

  datatype NetlocSplit = NetlocSplit(netloc: string, rest: string)

  /** After `//`, the network location runs up to the first `/`, `?` or `#`. */
  function SplitNetloc(url: string): (r: NetlocSplit)
    ensures '/' !in r.netloc && '?' !in r.netloc && '#' !in r.netloc
    ensures r.rest == "" || r.rest[0] in {'/', '?', '#'} || r.rest == url
    ensures r.netloc != "" ==> url == "//" + r.netloc + r.rest
  {
    if |url| >= 2 && url[..2] == "//" then
      var j := 2 + FirstOf(url[2..], {'/', '?', '#'});
      assert forall c | c in url[2..j] :: c !in {'/', '?', '#'};
      assert url == "//" + url[2..j] + url[j..];
      NetlocSplit(url[2..j], url[j..])
    else
      NetlocSplit("", url)
  }

  /** One square bracket without the other. */
  predicate UnbalancedBrackets(netloc: string) {
    ('[' in netloc) != (']' in netloc)
  }

  /** The parts of the base URL an absolute-path reference keeps. */
  datatype Base = Base(scheme: string, netloc: string)

  /** Splits the base into scheme and location; the only error is `Invalid IPv6 URL`. */
  function ParseBase(base: string): (r: Result<Base>)
    ensures r.Failure? ==> r.error == InvalidIPv6
  {
    var s := SplitScheme(Clean(base));
    var n := SplitNetloc(s.rest);
    if UnbalancedBrackets(n.netloc) then Failure(InvalidIPv6) else Success(Base(s.scheme, n.netloc))
  }

  /** `s.split(c, 1)` when `c` occurs in `s`; otherwise `s` and an empty tail. */
  function SplitOnce(s: string, c: char): (r: (string, string))
    ensures c in s ==> s == r.0 + [c] + r.1 && c !in r.0
    ensures c !in s ==> r == (s, "")
  {
    var i := FirstOf(s, {c});
    if i < |s| then
      assert s == s[..i] + [c] + s[i + 1..];
      (s[..i], s[i + 1..])
    else (s, "")
  }

  /** The index of the last `c` in `s`, or 0 when there is none. */
  function LastIndexOrZero(s: string, c: char): (i: nat)
    ensures c in s ==> i < |s| && s[i] == c && c !in s[i + 1..]
    ensures c !in s ==> i == 0
  {
    if |s| == 0 then 0
    else if s[|s| - 1] == c then |s| - 1
    else
      assert s == s[..|s| - 1] + [s[|s| - 1]];
      var i := LastIndexOrZero(s[..|s| - 1], c);
      assert c in s[..|s| - 1] ==> s[i + 1..] == s[..|s| - 1][i + 1..] + [s[|s| - 1]];
      i
  }

  /** `;parameters` start at the first `;` after the last `/`. */
  function SplitParams(url: string): (r: (string, string))
    ensures ';' in url[LastIndexOrZero(url, '/')..] ==> url == r.0 + ";" + r.1
    ensures ';' !in url[LastIndexOrZero(url, '/')..] ==> r == (url, "")
  {
    var start := LastIndexOrZero(url, '/');
    var i := start + FirstOf(url[start..], {';'});
    if i < |url| then
      assert url == url[..i] + ";" + url[i + 1..];
      (url[..i], url[i + 1..])
    else (url, "")
  }

  datatype Reference = Reference(path: string, params: string, query: string, fragment: string)

  /** The reference split at the first `#`, then the first `?`, then its parameters when the scheme has them. */
  function ParseReference(url: string, scheme: string): Reference {
    var beforeFragment := SplitOnce(url, '#');
    var beforeQuery := SplitOnce(beforeFragment.0, '?');
    var pathParams := if scheme in UsesParams then SplitParams(beforeQuery.0) else (beforeQuery.0, "");
    Reference(pathParams.0, pathParams.1, beforeQuery.1, beforeFragment.1)
  }

  /** The resolution loop: `..` pops the last resolved segment if any, `.` is skipped, others are pushed. */
  function ResolveDots(resolved: seq<string>, segs: seq<string>): seq<string>
    decreases |segs|
  {
    if |segs| == 0 then resolved
    else
      var next :=
        if segs[0] == ".." then (if |resolved| > 0 then resolved[..|resolved| - 1] else resolved)
        else if segs[0] == "." then resolved
        else resolved + [segs[0]];
      ResolveDots(next, segs[1..])
  }

  /**
    Dot-segment removal on a reference path that starts with `/`: its pieces
    are taken as they are, empty ones included; an empty result becomes `/`.
  */
  function ResolvePath(path: string): string {
    var segs := Split(path, '/');
    var last := segs[|segs| - 1];
    var resolved := ResolveDots([], segs) + (if last == "." || last == ".." then [""] else []);
    var joined := Join(resolved, '/');
    if joined == "" then "/" else joined
  }

  /** Reassembles a URL from its parts (`urlunparse`). */
  function Unparse(scheme: string, netloc: string, path: string, params: string, query: string, fragment: string): string {
    var url := if params != "" then path + ";" + params else path;
    var located :=
      if netloc != "" || (scheme != "" && scheme in UsesNetloc && !(|url| >= 2 && url[..2] == "//")) then
        "//" + netloc + (if url != "" && url[0] != '/' then "/" + url else url)
      else url;
    var schemed := if scheme != "" then scheme + ":" + located else located;
    var queried := if query != "" then schemed + "?" + query else schemed;
    if fragment != "" then queried + "#" + fragment else queried
  }

  /** A reference that starts with one `/` and no network location: the only kind the endpoints join. */
  predicate AbsolutePathReference(ref: string) {
    |ref| >= 2 && ref[0] == '/' && ref[1] != '/' && Safe([ref[1]])
  }

  /**
    `urljoin(base, ref)` for an absolute-path reference: an empty base, or a
    base whose scheme does not resolve relative references, gives the
    reference itself; otherwise the result has the base's scheme, the base's
    location when the scheme has one, and the reference's resolved path,
    parameters, query and fragment.
  */
  function JoinAbsolutePath(base: string, ref: string): (r: Result<string>)
    requires AbsolutePathReference(ref)
    ensures base == "" ==> r == Success(ref)
    ensures r.Failure? <==> base != "" && ParseBase(base).Failure?
    ensures r.Failure? ==> r.error == InvalidIPv6
  {
    if base == "" then Success(ref)
    else
      match ParseBase(base)
      case Failure(e) => Failure(e)
      case Success(b) =>
        if b.scheme !in UsesRelative then Success(ref)
        else
          var netloc := if b.scheme in UsesNetloc then b.netloc else "";
          var r := ParseReference(Clean(ref), b.scheme);
          Success(Unparse(b.scheme, netloc, ResolvePath(r.path), r.params, r.query, r.fragment))
  }

  /** The configured service domain: the environment's value when it is set, else the default. */
  function ApiDomainUrl(env: Option<string>): (url: string)
    ensures env.Some? ==> url == env.value
    ensures env.None? ==> url == "https://pofile.io"
  {
    env.GetOr(DefaultApiDomainUrl)
  }

  /** The upload endpoint of the configured domain. */
  function UploadEndpoint(domainEnv: Option<string>): (r: Result<string>)
    ensures r.Failure? ==> r.error == InvalidIPv6
  {
    JoinAbsolutePath(ApiDomainUrl(domainEnv), UploadPath)
  }

  /** The path of job `jobId`'s download endpoint. */
  function DownloadPath(jobId: string): string {
    DownloadPrefix + jobId + "/"
  }

  /** The download endpoint of job `jobId` on the configured domain. */
  function DownloadEndpoint(domainEnv: Option<string>, jobId: string): (r: Result<string>)
    ensures r.Failure? ==> r.error == InvalidIPv6
  {
    JoinAbsolutePath(ApiDomainUrl(domainEnv), DownloadPath(jobId))
  }
}

=== FILE: urls_cases.dfy ===
/**
  The endpoint URLs for concrete domains: the default and a custom domain
  with a sample job id, and the join's behaviour on a domain without a
  scheme, an empty domain, a domain with an unmatched bracket and a job id
  that is a dot segment.
*/
module UrlsCases {
  import opened Wrappers
  import opened Text
  import opened Urls
  import opened UrlsProofs

  const TestDomain: string := "https://test.pofile.io"
  /** The job id `446b3553-7f62-4ec2-b3fc-b18708e3ff6a`, built from its five groups. */
  const SampleJobId: string := "446b3553" + "-" + "7f62" + "-" + "4ec2" + "-" + "b3fc" + "-" + "b18708e3ff6a"

  lemma HttpsOrigin(host: string)
    requires '/' !in host && '?' !in host && '#' !in host && '[' !in host && ']' !in host && Safe(host)
    requires AsciiText(host)
    ensures OriginBase("https", host, "")
  {
    LowerKeepsLower("https");
  }

  lemma HttpsLower()
    ensures Lower("https") == "https"
  {
    LowerKeepsLower("https");
  }

  lemma DefaultDomainSpelled()
    ensures ApiDomainUrl(None) == "https" + "://" + "pofile.io" + ""
  {
  }

  lemma TestDomainSpelled()
    ensures ApiDomainUrl(Some(TestDomain)) == "https" + "://" + "test.pofile.io" + ""
  {
  }

  lemma SampleJobIdMarks()
    ensures '/' !in SampleJobId && '?' !in SampleJobId && '#' !in SampleJobId
  {
  }

  lemma SampleJobIdSafe()
    ensures '/' !in SampleJobId && Safe(SampleJobId)
  {
  }

  lemma SampleJobIdPlain()
    ensures PlainJobId(SampleJobId)
  {
    SampleJobIdMarks();
    SampleJobIdSafe();
    SplitWhole(SampleJobId, '/');
    assert |SampleJobId| > 2;
  }

  lemma HostsAscii()
    ensures AsciiText("pofile.io") && AsciiText("test.pofile.io")
  {
  }

  lemma DefaultUploadJoined()
    ensures UploadEndpoint(None) == Success(Lower("https") + "://" + "pofile.io" + UploadPath)
  {
    DefaultDomainSpelled();
    HostsAscii();
    HttpsOrigin("pofile.io");
    UploadEndpointOfOrigin(None, "https", "pofile.io", "");
  }

  lemma DefaultDownloadJoined()
    ensures DownloadEndpoint(None, SampleJobId) == Success(Lower("https") + "://" + "pofile.io" + DownloadPath(SampleJobId))
  {
    DefaultDomainSpelled();
    HostsAscii();
    HttpsOrigin("pofile.io");
    SampleJobIdPlain();
    DownloadEndpointOfOrigin(None, "https", "pofile.io", "", SampleJobId);
  }

  lemma CustomUploadJoined()
    ensures UploadEndpoint(Some(TestDomain)) == Success(Lower("https") + "://" + "test.pofile.io" + UploadPath)
  {
    TestDomainSpelled();
    HostsAscii();
    HttpsOrigin("test.pofile.io");
    UploadEndpointOfOrigin(Some(TestDomain), "https", "test.pofile.io", "");
  }

  lemma CustomDownloadJoined()
    ensures DownloadEndpoint(Some(TestDomain), SampleJobId)
         == Success(Lower("https") + "://" + "test.pofile.io" + DownloadPath(SampleJobId))
  {
    TestDomainSpelled();
    HostsAscii();
    HttpsOrigin("test.pofile.io");
    SampleJobIdPlain();
    DownloadEndpointOfOrigin(Some(TestDomain), "https", "test.pofile.io", "", SampleJobId);
  }

  lemma DefaultUploadSpelled()
    ensures Lower("https") + "://" + "pofile.io" + UploadPath == "https://pofile.io/api/upload/"
  {
    HttpsLower();
  }

  /** The download endpoint on an `https` host, spelled out. */
  lemma DownloadSpelled(host: string, id: string)
    ensures Lower("https") + "://" + host + DownloadPath(id) == "https://" + host + DownloadPrefix + id + "/"
  {
    HttpsLower();
  }

  lemma DefaultDownloadSpelled()
    ensures Lower("https") + "://" + "pofile.io" + DownloadPath(SampleJobId) == "https://pofile.io/api/download/" + SampleJobId + "/"
  {
    DownloadSpelled("pofile.io", SampleJobId);
    DefaultPrefixSpelled();
  }

  lemma DefaultPrefixSpelled()
    ensures "https://" + "pofile.io" + DownloadPrefix == "https://pofile.io/api/download/"
  {
    assert "https://" + "pofile.io" == "https://pofile.io";
  }

  lemma CustomPrefixSpelled()
    ensures "https://" + "test.pofile.io" + DownloadPrefix == "https://test.pofile.io/api/download/"
  {
    assert "https://" + "test.pofile.io" == "https://test.pofile.io";
  }

  lemma CustomUploadSpelled()
    ensures Lower("https") + "://" + "test.pofile.io" + UploadPath == "https://test.pofile.io/api/upload/"
  {
    HttpsLower();
  }

  lemma CustomDownloadSpelled()
    ensures Lower("https") + "://" + "test.pofile.io" + DownloadPath(SampleJobId) == "https://test.pofile.io/api/download/" + SampleJobId + "/"
  {
    DownloadSpelled("test.pofile.io", SampleJobId);
    CustomPrefixSpelled();
  }

  /** With no domain configured, the upload endpoint is on `https://pofile.io`. */
  lemma DefaultUploadEndpoint()
    ensures UploadEndpoint(None) == Success("https://pofile.io/api/upload/")
  {
    DefaultUploadJoined();
    DefaultUploadSpelled();
  }

  /** With no domain configured, the sample job's download endpoint is on `https://pofile.io`. */
  lemma DefaultDownloadEndpoint()
    ensures DownloadEndpoint(None, SampleJobId) == Success("https://pofile.io/api/download/" + SampleJobId + "/")
  {
    DefaultDownloadJoined();
    DefaultDownloadSpelled();
  }

  /** With a custom domain configured, the upload endpoint is on that domain. */
  lemma CustomUploadEndpoint()
    ensures UploadEndpoint(Some(TestDomain)) == Success("https://test.pofile.io/api/upload/")
  {
    CustomUploadJoined();
    CustomUploadSpelled();
  }

  /** With a custom domain configured, the sample job's download endpoint is on that domain. */
  lemma CustomDownloadEndpoint()
    ensures DownloadEndpoint(Some(TestDomain), SampleJobId) == Success("https://test.pofile.io/api/download/" + SampleJobId + "/")
  {
    CustomDownloadJoined();
    CustomDownloadSpelled();
  }

  lemma DefaultClimbSpelled()
    ensures Lower("https") + "://" + "pofile.io" + "/api/" == "https://pofile.io/api/"
  {
    HttpsLower();
  }

  /** With no domain configured, the job id `..` gets the endpoint `https://pofile.io/api/`. */
  lemma DefaultDotDotEndpoint()
    ensures DownloadEndpoint(None, "..") == Success("https://pofile.io/api/")
  {
    DefaultDomainSpelled();
    HostsAscii();
    HttpsOrigin("pofile.io");
    DotDotJobIdClimbs(None, "https", "pofile.io", "");
    DefaultClimbSpelled();
  }

  lemma DoubleSlashPieces()
    ensures Split("a//b", '/') == ["a", "", "b"]
  {
    assert "a//b" == "a" + ['/'] + "/b";
    SplitPiece("a", '/', "/b");
    assert "/b" == "" + ['/'] + "b";
    SplitPiece("", '/', "b");
    SplitWhole("b", '/');
  }

  lemma DoubleSlashPlain()
    ensures PlainJobId("a//b")
  {
    DoubleSlashPieces();
  }

  lemma DoubleSlashJoined()
    ensures DownloadEndpoint(None, "a//b") == Success(Lower("https") + "://" + "pofile.io" + DownloadPath("a//b"))
  {
    DefaultDomainSpelled();
    HostsAscii();
    HttpsOrigin("pofile.io");
    DoubleSlashPlain();
    DownloadEndpointOfOrigin(None, "https", "pofile.io", "", "a//b");
  }

  lemma DoubleSlashSpelled()
    ensures Lower("https") + "://" + "pofile.io" + DownloadPath("a//b") == "https://pofile.io/api/download/a//b/"
  {
    HttpsLower();
  }

  /** An empty piece inside the job id is kept: the reference starts with `/`, so no segment is dropped. */
  lemma DoubleSlashKept()
    ensures DownloadEndpoint(None, "a//b") == Success("https://pofile.io/api/download/a//b/")
  {
    DoubleSlashJoined();
    DoubleSlashSpelled();
  }
}

=== FILE: urls_proofs.dfy ===
/**
  What the endpoint builders promise: for a base URL `scheme://host`
  followed by any path, query or fragment, the upload endpoint is
  `scheme://host/api/upload/` and the download endpoint of a plain job id
  `J` is `scheme://host/api/download/J/`, with the scheme lower-cased and
  whatever followed the host replaced.
*/
module UrlsProofs {
  import opened Wrappers
  import opened Text
  import opened Urls

  /** `scheme://host` followed by nothing, or by a path, query or fragment; no tabs or line breaks. */
  predicate OriginShape(scheme: string, host: string, tail: string) {
    && ValidScheme(scheme)
    && '/' !in host && '?' !in host && '#' !in host
    && (tail == "" || tail[0] in {'/', '?', '#'})
    && Safe(host) && Safe(tail)
  }

  /** Text made of ASCII characters only. */
  predicate AsciiText(s: string) {
    forall c | c in s :: c as int < 128
  }

  /**
    Such a base whose scheme resolves relative references and has a
    location, and whose location is ASCII text without square brackets.
  */
  predicate OriginBase(scheme: string, host: string, tail: string) {
    && OriginShape(scheme, host, tail)
    && Lower(scheme) in UsesRelative && Lower(scheme) in UsesNetloc
    && '[' !in host && ']' !in host && AsciiText(host)
  }

  /**
    A job id with no query or fragment mark, no tab or line break, and no
    `/`-separated piece that is a dot segment. It may be empty or contain `/`.
  */
  predicate PlainJobId(id: string) {
    && '?' !in id && '#' !in id && Safe(id)
    && var pieces := Split(id, '/');
       forall k | 0 <= k < |pieces| :: pieces[k] != "." && pieces[k] != ".."
  }

  lemma {:induction false} RemoveUnsafeKeepsSafe(s: string)
    requires Safe(s)
    ensures RemoveUnsafe(s) == s
  {
    if |s| > 0 {
      assert s[0] in s && s == [s[0]] + s[1..];
      RemoveUnsafeKeepsSafe(s[1..]);
    }
  }

  /** Cleaning leaves a URL alone when it starts with a visible character and has no tab or line break. */
  lemma CleanUnchanged(s: string)
    requires |s| > 0 && s[0] > ' ' && Safe(s)
    ensures Clean(s) == s
  {
    RemoveUnsafeKeepsSafe(s);
  }

  lemma LowerKeepsLower(s: string)
    requires forall c | c in s :: !('A' <= c <= 'Z')
    ensures Lower(s) == s
  {
    forall i | 0 <= i < |s| ensures Lower(s)[i] == s[i] {
      assert s[i] in s;
    }
  }

  /** `scheme:rest` splits into the lower-cased scheme and `rest`. */
  lemma SchemeOf(scheme: string, rest: string)
    requires ValidScheme(scheme)
    ensures SplitScheme(scheme + ":" + rest) == SchemeSplit(Lower(scheme), rest)
  {
    var url := scheme + ":" + rest;
    forall k | 0 <= k < |scheme| ensures url[k] != ':' && IsSchemeChar(url[k]) {
      assert url[k] == scheme[k] && scheme[k] in scheme;
    }
    assert url[|scheme|] == ':';
    assert FirstOf(url, {':'}) == |scheme|;
    assert url[..|scheme|] == scheme && url[|scheme| + 1..] == rest;
  }

  /** `//host tail` splits into `host` and `tail`. */
  lemma NetlocOf(host: string, tail: string)
    requires '/' !in host && '?' !in host && '#' !in host
    requires tail == "" || tail[0] in {'/', '?', '#'}
    ensures SplitNetloc("//" + host + tail) == NetlocSplit(host, tail)
  {
    var url := "//" + host + tail;
    assert url[..2] == "//";
    assert url[2..] == host + tail;
    forall k | 0 <= k < |host| ensures (host + tail)[k] !in {'/', '?', '#'} {
      assert (host + tail)[k] == host[k] && host[k] in host;
    }
    if tail != "" {
      assert (host + tail)[|host|] == tail[0];
    }
    assert FirstOf(host + tail, {'/', '?', '#'}) == |host|;
    assert url[2..2 + |host|] == host && url[2 + |host|..] == tail;
  }

  /**
    The base keeps its lower-cased scheme and its host; what follows the host
    is ignored. A host with an unmatched bracket raises; an ASCII host without
    brackets is accepted.
  */
  lemma ParseOrigin(scheme: string, host: string, tail: string)
    requires OriginShape(scheme, host, tail)
    ensures UnbalancedBrackets(host) ==> ParseBase(scheme + "://" + host + tail) == Failure(InvalidIPv6)
    ensures '[' !in host && ']' !in host && AsciiText(host) ==>
      ParseBase(scheme + "://" + host + tail) == Success(Base(Lower(scheme), host))
  {
    var base := scheme + "://" + host + tail;
    assert base == scheme + ":" + ("//" + host + tail);
    assert base[0] == scheme[0];
    forall c | c in scheme ensures c != '\t' && c != '\r' && c != '\n' {
      assert IsSchemeChar(c);
    }
    CleanUnchanged(base);
    SchemeOf(scheme, "//" + host + tail);
    NetlocOf(host, tail);
  }

  /** A reference path ending in `/` with no `?` or `#` has no parameters, query or fragment. */
  lemma PlainReference(path: string, scheme: string)
    requires |path| > 0 && path[|path| - 1] == '/' && '?' !in path && '#' !in path
    ensures ParseReference(path, scheme) == Reference(path, "", "", "")
  {
    var start := LastIndexOrZero(path, '/');
    assert path[|path| - 1] in path;
    assert start == |path| - 1;
    assert path[start..] == "/";
  }

  lemma {:induction false} ResolveDotsPlain(resolved: seq<string>, segs: seq<string>)
    requires forall k | 0 <= k < |segs| :: segs[k] != "." && segs[k] != ".."
    ensures ResolveDots(resolved, segs) == resolved + segs
    decreases |segs|
  {
    if |segs| > 0 {
      ResolveDotsPlain(resolved + [segs[0]], segs[1..]);
      assert resolved + [segs[0]] + segs[1..] == resolved + segs;
    }
  }

  lemma JoinOfTwoOrMore(segs: seq<string>, c: char)
    requires |segs| >= 2
    ensures Join(segs, c) != ""
  {
    assert Join(segs, c) == segs[0] + [c] + Join(segs[1..], c);
  }

  /** A path whose pieces are plain, separator-free segments resolves to the join of those pieces. */
  lemma ResolveSplitPlain(path: string, segs: seq<string>)
    requires Split(path, '/') == segs && |segs| >= 2
    requires forall k | 0 <= k < |segs| :: segs[k] != "." && segs[k] != ".."
    ensures ResolvePath(path) == Join(segs, '/')
  {
    var last := segs[|segs| - 1];
    assert last != "." && last != "..";
    ResolveDotsPlain([], segs);
    var resolved := ResolveDots([], segs) + [];
    assert resolved == segs;
    JoinOfTwoOrMore(segs, '/');
  }

  /** A path of separator-free segments, none of them a dot segment, resolves to itself; empty segments are kept. */
  lemma ResolvePlainPath(segs: seq<string>)
    requires |segs| >= 2
    requires forall k | 0 <= k < |segs| :: '/' !in segs[k] && segs[k] != "." && segs[k] != ".."
    ensures ResolvePath(Join(segs, '/')) == Join(segs, '/')
  {
    SplitJoin(segs, '/');
    ResolveSplitPlain(Join(segs, '/'), segs);
  }

  lemma UploadSegments()
    ensures Join(["", "api", "upload", ""], '/') == UploadPath
  {
    var segs := ["", "api", "upload", ""];
    assert Join(segs[2..], '/') == "upload/";
    assert Join(segs[1..], '/') == "api/upload/";
  }

  /** The pieces of a job's download path: the prefix's, the job id's own, and an empty last one. */
  function DownloadSegs(jobId: string): seq<string> {
    ["", "api", "download"] + Split(jobId, '/') + [""]
  }

  lemma DownloadPrefixSegments()
    ensures Join(["", "api", "download"], '/') + "/" == DownloadPrefix
  {
    var segs := ["", "api", "download"];
    assert Join(segs[2..], '/') == "download";
    assert Join(segs[1..], '/') == "api/download";
  }

  lemma DownloadSegments(jobId: string)
    ensures Join(DownloadSegs(jobId), '/') == DownloadPath(jobId)
  {
    var pieces := Split(jobId, '/');
    JoinSplit(jobId, '/');
    JoinAppend(pieces, [""], '/');
    assert Join([""], '/') == "";
    JoinAppend(["", "api", "download"], pieces + [""], '/');
    assert DownloadSegs(jobId) == ["", "api", "download"] + (pieces + [""]);
    DownloadPrefixSegments();
  }

  /** Reassembling a scheme that has a location, a host and an absolute path. */
  lemma UnparseOrigin(scheme: string, host: string, path: string)
    requires scheme != "" && scheme in UsesNetloc
    requires |path| >= 2 && path[0] == '/' && path[1] != '/'
    ensures Unparse(scheme, host, path, "", "", "") == scheme + "://" + host + path
  {
  }

  /**
    The join of an absolute-path reference with no parameters, query or
    fragment onto a parsed base whose scheme resolves relative references.
  */
  lemma JoinParsed(base: string, b: Base, ref: string)
    requires base != "" && ParseBase(base) == Success(b) && b.scheme in UsesRelative
    requires AbsolutePathReference(ref) && ParseReference(Clean(ref), b.scheme) == Reference(ref, "", "", "")
    ensures JoinAbsolutePath(base, ref)
         == Success(Unparse(b.scheme, if b.scheme in UsesNetloc then b.netloc else "", ResolvePath(ref), "", "", ""))
  {
  }

  /** Segments of an absolute path ending in `/`: non-empty names free of `/?#` between an empty first and last piece. */
  predicate CleanSegments(segs: seq<string>) {
    && |segs| >= 3 && segs[0] == "" && segs[1] != "" && segs[|segs| - 1] == ""
    && forall k | 0 <= k < |segs| ::
         '/' !in segs[k] && '?' !in segs[k] && '#' !in segs[k] && Safe(segs[k])
  }

  /** Such segments none of which is a dot segment. */
  predicate PlainSegments(segs: seq<string>) {
    && CleanSegments(segs)
    && forall k | 0 <= k < |segs| :: segs[k] != "." && segs[k] != ".."
  }

  /** A character found in no piece, and other than the separator, is not in the join. */
  lemma {:induction false} JoinAvoids(segs: seq<string>, sep: char, c: char)
    requires c != sep && forall k | 0 <= k < |segs| :: c !in segs[k]
    ensures c !in Join(segs, sep)
  {
    if |segs| > 1 {
      JoinAvoids(segs[1..], sep, c);
    }
  }

  /** A join whose last piece is empty ends with the separator. */
  lemma {:induction false} JoinEndsWithSeparator(segs: seq<string>, sep: char)
    requires |segs| >= 2 && segs[|segs| - 1] == ""
    ensures |Join(segs, sep)| > 0 && Join(segs, sep)[|Join(segs, sep)| - 1] == sep
  {
    if |segs| > 2 {
      JoinEndsWithSeparator(segs[1..], sep);
    }
  }

  lemma PlainPathShape(segs: seq<string>)
    requires CleanSegments(segs)
    ensures var p := Join(segs, '/');
      && AbsolutePathReference(p) && Safe(p) && '?' !in p && '#' !in p
      && p[|p| - 1] == '/'
  {
    var p := Join(segs, '/');
    var rest := Join(segs[1..], '/');
    assert rest == segs[1] + ['/'] + Join(segs[2..], '/');
    assert p == "/" + rest;
    assert p[1] == segs[1][0] && segs[1][0] in segs[1];
    JoinAvoids(segs, '/', '?');
    JoinAvoids(segs, '/', '#');
    JoinAvoids(segs, '/', '\t');
    JoinAvoids(segs, '/', '\r');
    JoinAvoids(segs, '/', '\n');
    JoinEndsWithSeparator(segs, '/');
  }

  /** Joining a plain absolute path onto `scheme://host tail` gives `scheme://host` followed by that path. */
  lemma JoinPlainPath(scheme: string, host: string, tail: string, segs: seq<string>)
    requires OriginBase(scheme, host, tail) && PlainSegments(segs)
    ensures AbsolutePathReference(Join(segs, '/'))
    ensures JoinAbsolutePath(scheme + "://" + host + tail, Join(segs, '/'))
         == Success(Lower(scheme) + "://" + host + Join(segs, '/'))
  {
    var p := Join(segs, '/');
    PlainPathShape(segs);
    CleanUnchanged(p);
    PlainReference(p, Lower(scheme));
    ResolvePlainPath(segs);
    ParseOrigin(scheme, host, tail);
    JoinParsed(scheme + "://" + host + tail, Base(Lower(scheme), host), p);
    assert |Lower(scheme)| == |scheme| > 0;
    UnparseOrigin(Lower(scheme), host, p);
  }

  lemma DownloadSegmentsPlain(jobId: string)
    requires PlainJobId(jobId)
    ensures PlainSegments(DownloadSegs(jobId))
  {
    var pieces := Split(jobId, '/');
    var segs := DownloadSegs(jobId);
    SplitAvoids(jobId, '/', '?');
    SplitAvoids(jobId, '/', '#');
    SplitAvoids(jobId, '/', '\t');
    SplitAvoids(jobId, '/', '\r');
    SplitAvoids(jobId, '/', '\n');
    forall k | 0 <= k < |segs|
      ensures segs[k] != "." && segs[k] != ".." && '/' !in segs[k] && '?' !in segs[k] && '#' !in segs[k] && Safe(segs[k])
    {
      if 3 <= k < 3 + |pieces| {
        assert segs[k] == pieces[k - 3];
      }
    }
  }

  /** Joining `/api/upload/` onto `scheme://host tail` gives `scheme://host/api/upload/`. */
  lemma JoinUpload(scheme: string, host: string, tail: string)
    requires OriginBase(scheme, host, tail)
    ensures JoinAbsolutePath(scheme + "://" + host + tail, UploadPath) == Success(Lower(scheme) + "://" + host + UploadPath)
  {
    UploadSegments();
    UploadSegmentsPlain();
    JoinPlainPath(scheme, host, tail, ["", "api", "upload", ""]);
  }

  /** Joining `/api/download/J/` onto `scheme://host tail` gives `scheme://host/api/download/J/` for a plain job id. */
  lemma JoinDownload(scheme: string, host: string, tail: string, jobId: string)
    requires OriginBase(scheme, host, tail) && PlainJobId(jobId)
    ensures JoinAbsolutePath(scheme + "://" + host + tail, DownloadPath(jobId))
         == Success(Lower(scheme) + "://" + host + DownloadPath(jobId))
  {
    DownloadSegments(jobId);
    DownloadSegmentsPlain(jobId);
    JoinPlainPath(scheme, host, tail, DownloadSegs(jobId));
  }

  /** With the domain `scheme://host` (plus any path, query or fragment) configured, the upload endpoint is `scheme://host/api/upload/`. */
  lemma UploadEndpointOfOrigin(domainEnv: Option<string>, scheme: string, host: string, tail: string)
    requires ApiDomainUrl(domainEnv) == scheme + "://" + host + tail && OriginBase(scheme, host, tail)
    ensures UploadEndpoint(domainEnv) == Success(Lower(scheme) + "://" + host + UploadPath)
  {
    JoinUpload(scheme, host, tail);
  }

  /** With the same domain, the download endpoint of a plain job id `J` is `scheme://host/api/download/J/`. */
  lemma DownloadEndpointOfOrigin(domainEnv: Option<string>, scheme: string, host: string, tail: string, jobId: string)
    requires ApiDomainUrl(domainEnv) == scheme + "://" + host + tail && OriginBase(scheme, host, tail)
    requires PlainJobId(jobId)
    ensures DownloadEndpoint(domainEnv, jobId) == Success(Lower(scheme) + "://" + host + DownloadPath(jobId))
  {
    JoinDownload(scheme, host, tail, jobId);
  }

  /** A domain whose host has one square bracket without the other makes both endpoints raise. */
  lemma UnbalancedHostRaises(domainEnv: Option<string>, scheme: string, host: string, tail: string, jobId: string)
    requires ApiDomainUrl(domainEnv) == scheme + "://" + host + tail && OriginShape(scheme, host, tail)
    requires UnbalancedBrackets(host)
    ensures UploadEndpoint(domainEnv) == Failure(InvalidIPv6)
    ensures DownloadEndpoint(domainEnv, jobId) == Failure(InvalidIPv6)
  {
    ParseOrigin(scheme, host, tail);
  }

  /** A base with no colon that does not start with `//` has neither scheme nor location. */
  lemma ParseSchemeless(base: string)
    requires |base| > 0 && base[0] > ' ' && Safe(base) && ':' !in base && !(|base| >= 2 && base[..2] == "//")
    ensures ParseBase(base) == Success(Base("", ""))
  {
    CleanUnchanged(base);
    assert FirstOf(base, {':'}) == |base|;
  }

  /**
    A domain given without a scheme (no colon, not starting with `//`) loses
    its host: both endpoints come out as bare paths.
  */
  lemma SchemelessDomainGivesPaths(domainEnv: Option<string>, segs: seq<string>)
    requires var d := ApiDomainUrl(domainEnv);
      |d| > 0 && d[0] > ' ' && Safe(d) && ':' !in d && !(|d| >= 2 && d[..2] == "//")
    requires PlainSegments(segs)
    ensures AbsolutePathReference(Join(segs, '/'))
    ensures JoinAbsolutePath(ApiDomainUrl(domainEnv), Join(segs, '/')) == Success(Join(segs, '/'))
  {
    var p := Join(segs, '/');
    PlainPathShape(segs);
    CleanUnchanged(p);
    PlainReference(p, "");
    ResolvePlainPath(segs);
    ParseSchemeless(ApiDomainUrl(domainEnv));
    JoinParsed(ApiDomainUrl(domainEnv), Base("", ""), p);
  }

  /** An empty domain setting gives the bare paths. */
  lemma EmptyDomainGivesPaths(jobId: string)
    ensures UploadEndpoint(Some("")) == Success(UploadPath)
    ensures DownloadEndpoint(Some(""), jobId) == Success(DownloadPath(jobId))
  {
  }

  lemma UploadSegmentsPlain()
    ensures PlainSegments(["", "api", "upload", ""])
  {
  }

  /** With a domain that has no scheme, the endpoints are the bare upload and download paths. */
  lemma SchemelessEndpoints(domainEnv: Option<string>, jobId: string)
    requires var d := ApiDomainUrl(domainEnv);
      |d| > 0 && d[0] > ' ' && Safe(d) && ':' !in d && !(|d| >= 2 && d[..2] == "//")
    requires PlainJobId(jobId)
    ensures UploadEndpoint(domainEnv) == Success(UploadPath)
    ensures DownloadEndpoint(domainEnv, jobId) == Success(DownloadPath(jobId))
  {
    UploadSegments();
    UploadSegmentsPlain();
    SchemelessDomainGivesPaths(domainEnv, ["", "api", "upload", ""]);
    DownloadSegments(jobId);
    DownloadSegmentsPlain(jobId);
    SchemelessDomainGivesPaths(domainEnv, DownloadSegs(jobId));
  }

  /** `a/b/..` resolves to `a`. */
  lemma ResolveClimb(path: string, a: string, b: string)
    requires Split(path, '/') == ["", a, b, "..", ""]
    requires a != "" && a != "." && a != ".." && b != "" && b != "." && b != ".."
    ensures ResolvePath(path) == Join(["", a, ""], '/')
  {
    var segs := ["", a, b, "..", ""];
    assert [] + [""] == [""] && [""] + [a] == ["", a] && ["", a] + [b] == ["", a, b];
    assert ["", a, b][..2] == ["", a] && ["", a] + [""] == ["", a, ""];
    calc {
      ResolveDots([], segs);
      ResolveDots([""], segs[1..]);
      ResolveDots(["", a], segs[2..]);
      ResolveDots(["", a, b], segs[3..]);
      ResolveDots(["", a], segs[4..]);
      ResolveDots(["", a, ""], segs[5..]);
    }
    assert ResolveDots([], segs) + [] == ["", a, ""];
    JoinOfTwoOrMore(["", a, ""], '/');
  }

  lemma DotDotSegmentsClean()
    ensures CleanSegments(["", "api", "download", "..", ""])
  {
  }

  lemma ApiSegments()
    ensures Join(["", "api", ""], '/') == "/api/"
  {
  }

  /** The download path of the job id `..` resolves to `/api/`. */
  lemma DotDotPath()
    ensures AbsolutePathReference(DownloadPath(".."))
    ensures Clean(DownloadPath("..")) == DownloadPath("..")
    ensures '?' !in DownloadPath("..") && '#' !in DownloadPath("..")
    ensures DownloadPath("..")[|DownloadPath("..")| - 1] == '/'
    ensures ResolvePath(DownloadPath("..")) == "/api/"
  {
    var segs := ["", "api", "download", "..", ""];
    DownloadSegments("..");
    SplitWhole("..", '/');
    assert DownloadSegs("..") == segs;
    DotDotSegmentsClean();
    PlainPathShape(segs);
    CleanUnchanged(Join(segs, '/'));
    SplitJoin(segs, '/');
    ResolveClimb(Join(segs, '/'), "api", "download");
    ApiSegments();
  }

  lemma DotDotJoined(scheme: string, host: string, tail: string)
    requires OriginBase(scheme, host, tail)
    ensures JoinAbsolutePath(scheme + "://" + host + tail, DownloadPath(".."))
         == Success(Unparse(Lower(scheme), host, "/api/", "", "", ""))
  {
    DotDotPath();
    PlainReference(DownloadPath(".."), Lower(scheme));
    ParseOrigin(scheme, host, tail);
    JoinParsed(scheme + "://" + host + tail, Base(Lower(scheme), host), DownloadPath(".."));
  }

  lemma ApiPathShape()
    ensures |"/api/"| >= 2 && "/api/"[0] == '/' && "/api/"[1] != '/'
  {
  }

  lemma DotDotJoinedOrigin(scheme: string, host: string, tail: string)
    requires OriginBase(scheme, host, tail)
    ensures JoinAbsolutePath(scheme + "://" + host + tail, DownloadPath(".."))
         == Success(Lower(scheme) + "://" + host + "/api/")
  {
    DotDotJoined(scheme, host, tail);
    var lower := Lower(scheme);
    assert |lower| == |scheme| > 0;
    ApiPathShape();
    UnparseOrigin(lower, host, "/api/");
  }

  /**
    The job id is not confined to its segment: the id `..` makes the
    download endpoint `scheme://host/api/`, one level above the download path.
  */
  lemma DotDotJobIdClimbs(domainEnv: Option<string>, scheme: string, host: string, tail: string)
    requires ApiDomainUrl(domainEnv) == scheme + "://" + host + tail && OriginBase(scheme, host, tail)
    ensures DownloadEndpoint(domainEnv, "..") == Success(Lower(scheme) + "://" + host + "/api/")
  {
    DotDotJoinedOrigin(scheme, host, tail);
  }
}

=== FILE: validator.dfy ===
/**
  The content sniff applied to every candidate file before upload
  (`is_valid_po_content`): a file is accepted when its text contains the
  `"Language: ` header key, at least one `msgid "` and at least one
  `msgstr "`. It is a heuristic on substrings, not a parser.
*/
module Validator {
  import opened Text

  const LanguageMarker: string := "\"Language: "
  const MsgidMarker: string := "msgid \""
  const MsgstrMarker: string := "msgstr \""

  /** The three markers, in the order the source checks them. */
  const Markers: seq<string> := [LanguageMarker, MsgidMarker, MsgstrMarker]

  function IsValidPoContent(content: string): (valid: bool)
    ensures valid <==> forall m | m in Markers :: HasSubstring(content, m)
  {
    if !Contains(content, LanguageMarker) then false
    else if !Contains(content, MsgidMarker) then false
    else if !Contains(content, MsgstrMarker) then false
    else true
  }

  /** Dropping any one marker is enough to make content invalid; empty content is invalid. */
  lemma MissingMarkerRejected(content: string, m: string)
    requires m in Markers
    ensures !HasSubstring(content, m) ==> !IsValidPoContent(content)
    ensures !IsValidPoContent("")
  {
    assert !OccursAt("", LanguageMarker, 0);
  }
}

=== FILE: validator_cases.dfy ===
/**
  The parametrised cases of the validator's test suite, each proved about the
  model. Each case text is assembled from its lines exactly as written in the
  test file. A present marker is shown by the line it starts; a missing marker
  by a character of it that the text (or each newline-free stretch) lacks.
*/
module ValidatorCases {
  import opened Text
  import opened Validator

  const NL: string := "\n"
  const EmptyMsgid: string := "msgid \"\"\n"
  const EmptyMsgstr: string := "msgstr \"\"\n"
  const LanguageEn: string := "\"Language: en\\n\"\n"
  const LanguageFr: string := "\"Language: fr\\n\"\n"
  const LanguageDe: string := "\"Language: de\\n\"\n"
  const ContentType: string := "\"Content-Type: text/plain; charset=UTF-8\\n\"\n"
  const MsgidHello: string := "msgid \"Hello\"\n"
  const MsgstrHola: string := "msgstr \"Hola\"\n"
  const Indent: string := "            "

  const Full: string :=
    NL + EmptyMsgid + EmptyMsgstr + LanguageEn + ContentType + NL + MsgidHello + MsgstrHola
  const NoLanguage: string :=
    NL + EmptyMsgid + EmptyMsgstr + ContentType + NL + MsgidHello + MsgstrHola
  const NoMsgid: string :=
    NL + EmptyMsgstr + LanguageEn + ContentType + NL + MsgstrHola
  /** Written around its first newline-only split so that the stretches are visible. */
  const NoMsgstrHead: string := "\nmsgid \"\""
  const NoMsgstr: string :=
    NoMsgstrHead + NL + (LanguageEn + ContentType + NL + MsgidHello)
  const Minimal: string :=
    NL + EmptyMsgid + EmptyMsgstr + LanguageFr + NL + EmptyMsgid + EmptyMsgstr
  const OnlyLanguage: string := NL + LanguageDe
  const OnlyMsgid: string := NL + Indent + MsgidHello + Indent
  const OnlyMsgstr: string := NL + Indent + MsgstrHola + Indent

  lemma FullIsValid()
    ensures IsValidPoContent(Full)
  {
    var head := NL + EmptyMsgid + EmptyMsgstr;
    PieceOccurs(head, LanguageEn, LanguageMarker);
    ExtendRight(head + LanguageEn, ContentType, LanguageMarker);
    ExtendRight(head + LanguageEn + ContentType, NL, LanguageMarker);
    ExtendRight(head + LanguageEn + ContentType + NL, MsgidHello, LanguageMarker);
    ExtendRight(head + LanguageEn + ContentType + NL + MsgidHello, MsgstrHola, LanguageMarker);
    PieceOccurs(head + LanguageEn + ContentType + NL, MsgidHello, MsgidMarker);
    ExtendRight(head + LanguageEn + ContentType + NL + MsgidHello, MsgstrHola, MsgidMarker);
    PieceOccurs(head + LanguageEn + ContentType + NL + MsgidHello, MsgstrHola, MsgstrMarker);
  }

  lemma MinimalIsValid()
    ensures IsValidPoContent(Minimal)
  {
    var head := NL + EmptyMsgid + EmptyMsgstr;
    PieceOccurs(head, LanguageFr, LanguageMarker);
    ExtendRight(head + LanguageFr, NL, LanguageMarker);
    ExtendRight(head + LanguageFr + NL, EmptyMsgid, LanguageMarker);
    ExtendRight(head + LanguageFr + NL + EmptyMsgid, EmptyMsgstr, LanguageMarker);
    PieceOccurs(head + LanguageFr + NL, EmptyMsgid, MsgidMarker);
    ExtendRight(head + LanguageFr + NL + EmptyMsgid, EmptyMsgstr, MsgidMarker);
    PieceOccurs(head + LanguageFr + NL + EmptyMsgid, EmptyMsgstr, MsgstrMarker);
  }

  lemma NoLanguageIsInvalid()
    ensures !IsValidPoContent(NoLanguage)
  {
    assert 'L' !in EmptyMsgid && 'L' !in EmptyMsgstr && 'L' !in ContentType;
    assert 'L' !in MsgidHello && 'L' !in MsgstrHola && 'L' !in NL;
    AbsentChar(NoLanguage, LanguageMarker, 'L');
  }

  lemma NoMsgidIsInvalid()
    ensures !IsValidPoContent(NoMsgid)
  {
    assert 'd' !in EmptyMsgstr && 'd' !in LanguageEn && 'd' !in ContentType;
    assert 'd' !in MsgstrHola && 'd' !in NL;
    AbsentChar(NoMsgid, MsgidMarker, 'd');
  }

  /**
    Every character of `msgstr "` appears somewhere in this text, so the
    argument goes by newline-separated stretches: no stretch holds all of them.
  */
  lemma NoMsgstrIsInvalid()
    ensures !IsValidPoContent(NoMsgstr)
  {
    var body := LanguageEn + ContentType;
    SplitAtChar(NoMsgstrHead, '\n', body + NL + MsgidHello, MsgstrMarker);
    SplitAtChar(body, '\n', MsgidHello, MsgstrMarker);
    assert 'm' !in LanguageEn && 'm' !in ContentType;
    AbsentChar(NoMsgstrHead, MsgstrMarker, 't');
    AbsentChar(body, MsgstrMarker, 'm');
    AbsentChar(MsgidHello, MsgstrMarker, 't');
  }

  lemma OnlyOneMarkerIsInvalid()
    ensures !IsValidPoContent(OnlyLanguage)
    ensures !IsValidPoContent(OnlyMsgid)
    ensures !IsValidPoContent(OnlyMsgstr)
  {
    assert 'm' !in LanguageDe && 'L' !in Indent && 'L' !in MsgidHello && 'L' !in MsgstrHola;
    AbsentChar(OnlyLanguage, MsgidMarker, 'm');
    AbsentChar(OnlyMsgid, LanguageMarker, 'L');
    AbsentChar(OnlyMsgstr, LanguageMarker, 'L');
  }
}

=== FILE: wrappers.dfy ===
/**
  The Some/None datatype that stands in for Python's `Optional` values, and
  a result type for operations that can raise.
*/
module Wrappers {

  datatype Option<+T> = None | Some(value: T) {

    /** Returns the value in Some, or `default` when None. */
    function GetOr(default: T): T {
      match this
      case Some(v) => v
      case None => default
    }
  }

  /** A value, or the message of the error raised instead. */
  datatype Result<+T> = Success(value: T) | Failure(error: string)
}
